=== FILE: README.md ===
# ChartingDev computations in Dafny

ChartingDev is a set of small Python scripts that price options, lay out bond cash flows
and chart market data. Most of each script is plotting, Streamlit widgets or CSV
loading. This project models the computations under that glue as pure Dafny functions
over `real`, `int` and `string`, and proves what they promise.

- `american_options.dfy` (module `AmericanOptions`) models the Longstaff-Schwartz
  least-squares Monte Carlo price of an American put:
  - path simulation;
  - the terminal payoff;
  - the backward exercise loop as a state machine over the cash-flow vector;
  - the discounted mean.

  The normal draws are an input matrix. The least-squares solve is an oracle `fit`,
  which receives exactly the regressors and responses the script builds.
- `corporate_bond.dfy` (module `CorporateBond`) models the semi-annual schedule of
  `calculate_bond_cashflows`. Dates are day numbers. The month offset and the Canadian
  holiday calendar are abstract functions.
- `yield_curve.dfy` (module `YieldCurve`) models how the yield-curve script shapes its
  data:
  - tenor columns;
  - numeric coercion and `dropna`;
  - days since the earliest date;
  - the tenor-label parser;
  - the transpose into the surface grid.
- `black_scholes.dfy` (module `BlackScholes`) models the Black-Scholes price, the payoff
  diagram and the input bounds of the app. `OptionPricing_BSM_european_v2.py` has the
  same functions on different lines (12-18, 27-30, 59-61), so the same members model it.
- `price_browser.dfy` (module `PriceBrowser`) models the selection logic of the price
  browser, `StockPricePlotter.py`, and of its earlier copy `archive/streamlit.py`:
  - the `.csv` filter;
  - display names and the round trip back to a file name;
  - the first-match ticker lookup;
  - the inclusive date filter.
- The shared modules are:
  - `analytic.dfy`: the abstract `exp`, `log`, `sqrt` and normal CDF, with the few laws
    the proofs use;
  - `seqs.dfy`: filtering, mapping, gathering, sums and extrema over sequences;
  - `results.dfy`: `Option` and `Result`.

Python exceptions become `Err` values:
- `T / M` with `M == 0` raises, so `M == 0` gives `ZeroTimeSteps`;
- `np.mean` of an empty vector gives NaN, which the model reports as `NoPaths`;
- `math.log` and division errors in the Black-Scholes formula give `MathDomain` and `ZeroDivision`;
- `int()` on a bad tenor label gives `BadTenor`;
- `min()` of no rows gives `NoCompleteRows`.

Some details of the code that the model keeps, although a reader might expect otherwise:
- When no path is in the money, the `continue` on AmericanOptions.py lines 37-38 also skips the discount on line 55. That step leaves the cash-flow vector exactly as it was.
- The regression runs for any non-empty in-the-money set, even one with fewer than three paths.
- The script validates no parameters. For non-negative `N` and `M` the only failure is the division by `M` when `M = 0`; with `N = 0` the mean of no cash flows is NaN, which the model reports as `NoPaths`.
- Any option type other than exactly `"call"` is priced and drawn as a put.
- The `freq` argument of `calculate_bond_cashflows` is never read.

## Model

| member | source | states |
|---|---|---|
| AmericanOptions.DiscountFactorInUnit | AmericanOptions.py:16-17 | with r >= 0 and T >= 0 the one-step discount factor exp(-r dt) lies in (0, 1] |
| AmericanOptions.PathPrice | AmericanOptions.py:21-26 | every price of a path stays positive whenever S0 > 0, since each step multiplies by a positive growth factor |
| AmericanOptions.PathPriceClosedForm | AmericanOptions.py:21-26 | the price of path i at step t is S0 times the product of the growth factors of that path's first t draws |
| AmericanOptions.SimulatedPricesClosedForm | AmericanOptions.py:20-26 | every entry S[i][t] of the simulated matrix is S0 times the product of path i's growth factors up to step t |
| AmericanOptions.SimulatePaths | AmericanOptions.py:20-26 | the price matrix has N rows of M + 1 prices, column 0 is S0 on every path, and every price is positive when S0 > 0 |
| AmericanOptions.TerminalCashFlows | AmericanOptions.py:29 | path i starts with K - S[i, M] when that is positive and 0 otherwise, so every entry is non-negative and below K when prices and K are positive |
| AmericanOptions.InTheMoneyIncreasing | AmericanOptions.py:34 | the in-the-money index list is strictly increasing, so each path appears at most once and in path order |
| AmericanOptions.InTheMoney | AmericanOptions.py:34 | a path is selected exactly when K > S[i, t] strictly, so at-the-money paths are never selected |
| AmericanOptions.InTheMoneyEmpty | AmericanOptions.py:34-38 | the selection is empty exactly when every price at the step is at or above the strike |
| AmericanOptions.RegressionRows | AmericanOptions.py:41-42 | row k of the regression pairs the k-th in-the-money price, below K, with that path's cash flow discounted once |
| AmericanOptions.Overwrite | AmericanOptions.py:54 | the masked assignment keeps the length of the cash-flow vector; its effect is stated by OverwriteEffect |
| AmericanOptions.OverwriteEffect | AmericanOptions.py:54 | the masked assignment through the index list changes only listed positions, and a listed position takes its new value exactly when its mask entry is set |
| AmericanOptions.ExercisedEffect | AmericanOptions.py:47-54 | entry i becomes K - S[i, t] exactly when path i is in the money and K - x > c0 + c1 x + c2 x^2 strictly; every other entry keeps its value |
| AmericanOptions.RollbackFollowsScript | AmericanOptions.py:47-55 | overwriting the exercised entries and then discounting the whole vector equals the path-by-path rollback, so each entry is discounted exactly once |
| AmericanOptions.Step | AmericanOptions.py:32-55 | one loop iteration keeps the vector length, and leaves the vector unchanged, with no discount, when no path is in the money, and otherwise is the rollback with the fitted coefficients |
| AmericanOptions.StepKeepsRange | AmericanOptions.py:50-55 | whatever the fitted coefficients, a step keeps every cash flow in [0, K) given positive prices and a discount factor in (0, 1] |
| AmericanOptions.BackwardKeepsRange | AmericanOptions.py:32-55 | the whole backward loop keeps every cash flow in [0, K) |
| AmericanOptions.Backward | AmericanOptions.py:32-55 | running iterations t0 down to t + 1 keeps one cash flow per path |
| AmericanOptions.BackwardNeverInTheMoney | AmericanOptions.py:32-38 | when no path is in the money at any decision time, the loop returns the terminal cash flows unchanged, undiscounted |
| AmericanOptions.DecisionTimes | AmericanOptions.py:32 | the loop variable takes the values M - 1, M - 2, ..., 1 in that order, so M = 1 runs no iteration |
| AmericanOptions.BackwardInduction | AmericanOptions.py:32-55 | iterating over the decision times, each step reading the price column of its own time, yields the backward recursion over t = M - 1, ..., 1 |
| AmericanOptions.BackwardReadsOnlyDecisionColumns | AmericanOptions.py:32-34 | two price matrices that agree on columns 1..M - 1 give the same final cash flows, so column 0 is never a decision point and column M enters only through the terminal payoff |
| AmericanOptions.MeanInRange | AmericanOptions.py:58 | the arithmetic mean of cash flows in [0, K) lies in [0, K) |
| AmericanOptions.DiscountedMeanInRange | AmericanOptions.py:58 | the mean discounted once more stays in [0, K) when the discount factor is in (0, 1] |
| AmericanOptions.FinalCashFlowsInRange | AmericanOptions.py:29-55 | starting from the terminal payoff, every cash flow after the loop lies in [0, K) |
| AmericanOptions.AmericanPutPrice | AmericanOptions.py:16-58 | the script fails on M = 0 (division by M) and yields NaN on N = 0 (mean of no cash flows), which the model reports as NoPaths; no other input fails |
| AmericanOptions.PriceInRange | AmericanOptions.py:58 | with S0 > 0, K > 0, r >= 0 and T >= 0 every computed price lies in [0, K) |
| AmericanOptions.SingleStepIsTerminalPayoff | AmericanOptions.py:32 | with M = 1 no exercise decision is made and the price is the discounted mean of the terminal payoff |
| CorporateBond.CouponPaymentDates | corporateBond.py:12-17 | there are 2 * maturity_years dates (none when maturity_years <= 0), and date k is issue + 6 (k + 1) months, moved one business day on exactly when that date is a holiday |
| CorporateBond.CalculateBondCashflows | corporateBond.py:7-31 | the result pairs each payment date with an amount in date order, every amount except the last is par * rate / 2, the last is par + par * rate / 2, and freq has no effect |
| CorporateBond.ScheduleSum | corporateBond.py:20-29 | for maturity_years >= 1 the amounts sum to par plus 2 * maturity_years coupons |
| YieldCurve.Tenors | us_yield_curve_3d.py:13 | the tenor columns are all columns after the first, in their original order |
| YieldCurve.Coerce | us_yield_curve_3d.py:14 | every cell is converted on its own, keeping the row's date and width, with failures becoming NaN |
| YieldCurve.DropIncomplete | us_yield_curve_3d.py:17 | every kept row has a number for every tenor |
| YieldCurve.DropIncompleteKeepsCompleteRows | us_yield_curve_3d.py:14-17 | a row is kept exactly when all its tenor values parsed, and the kept rows keep their relative order |
| YieldCurve.DayOffsets | us_yield_curve_3d.py:24-25 | offsets fail only on no rows; otherwise there is one per date, all are non-negative, one is zero, and differences between dates are preserved |
| YieldCurve.DayOffsetsOrderPreserving | us_yield_curve_3d.py:24-25 | the offsets order the rows exactly as their dates do, and the earliest date maps to 0 |
| YieldCurve.ParseInt | us_yield_curve_3d.py:28 | the model of `int()` accepts exactly an optional sign followed by one or more ASCII decimal digits |
| YieldCurve.ParseShowInt | us_yield_curve_3d.py:28 | the integer parser reads back every integer literal written in decimal |
| YieldCurve.TenorMonths | us_yield_curve_3d.py:28 | an empty label fails, a label parses exactly when everything before its last character is an integer literal, and any other label reports itself as bad |
| YieldCurve.TenorOfNumber | us_yield_curve_3d.py:28 | a number followed by exactly 'Y' is 12 times that number, and followed by any other character it is that number |
| YieldCurve.TenorExamples | us_yield_curve_3d.py:28 | "3M" is 3, "30Y" is 360, "30y" is 30, "M" is a bad label and "" is an empty one |
| YieldCurve.TenorValues | us_yield_curve_3d.py:28 | the conversion succeeds exactly when every label converts, giving one value per label in order, and otherwise reports the first failing label |
| YieldCurve.YieldTable | us_yield_curve_3d.py:38 | the table has one row per kept date and one column per tenor, holding that row's parsed yields |
| YieldCurve.Transpose | us_yield_curve_3d.py:38 | Z[j][i] is entry (i, j) of the table, with one row per column of the table |
| YieldCurve.TransposeTwice | us_yield_curve_3d.py:38 | transposing twice gives the table back |
| YieldCurve.Grid | us_yield_curve_3d.py:38 | the grid has one row per tenor and one column per kept row, and entry [j][i] is tenor j's yield on kept row i |
| YieldCurve.KeptRows | us_yield_curve_3d.py:14-17 | after coercion and dropna every kept row is complete and has one rate per tenor |
| YieldCurve.YieldSurface | us_yield_curve_3d.py:13-38 | the script succeeds exactly when some row is complete and every tenor label converts; it fails with no rows left first, then with the first bad label; on success it returns each tenor's month count, the day offsets of the kept rows' dates, and Z[j][i] as tenor j's yield on kept row i |
| BlackScholes.D1D2 | OptionPricing_BSM_european.py:23-24 | d1 and d2 are defined exactly when K != 0, S / K > 0, T >= 0 and sigma sqrt(T) != 0; errors come in evaluation order (K = 0 divides by zero, then S / K <= 0 and T < 0 are domain errors, then a zero denominator divides by zero, which for lawful functions includes every T = 0); and d2 = d1 - sigma sqrt(T) |
| BlackScholes.Price | OptionPricing_BSM_european.py:23-31 | the price is defined exactly when d1 and d2 are, and otherwise fails with their error |
| BlackScholes.NonCallIsPut | OptionPricing_BSM_european.py:26-29 | every option type other than exactly "call" is priced as a put |
| BlackScholes.PutCallParity | OptionPricing_BSM_european.py:23-29 | with Phi(x) + Phi(-x) = 1, the call price minus the put price is S - K exp(-r T) |
| BlackScholes.PriceDefinedOnPositiveInputs | OptionPricing_BSM_european.py:23 | with S, K, T and sigma positive the price is always defined |
| BlackScholes.Payoff | OptionPricing_BSM_european.py:44-47 | the payoff has one entry per price, each at least -premium; a call pays S - K - premium where S > K and -premium elsewhere, and any other type pays K - S - premium where S < K and -premium elsewhere |
| BlackScholes.PayoffElementwise | OptionPricing_BSM_european.py:44-47 | entry i of the payoff depends on S[i] alone |
| BlackScholes.PayoffMonotone | OptionPricing_BSM_european.py:45-47 | on increasing prices the call payoff never falls and the put payoff never rises |
| BlackScholes.Linspace | OptionPricing_BSM_european.py:79 | the grid has n points, the first is lo and, for n >= 2, the last is hi and consecutive points are (hi - lo) / (n - 1) apart |
| BlackScholes.LinspaceNonDecreasing | OptionPricing_BSM_european.py:79 | the 500 price points run from 0.5 S to 1.5 S in increasing order |
| BlackScholes.InputBoundsAsWrittenAdmitFailures | OptionPricing_BSM_european.py:66-67 | the widgets as written admit S = 0 and K = 0, and the app then fails in the logarithm and in the division |
| BlackScholes.InputBoundsCorrectedAlwaysPrice | OptionPricing_BSM_european.py:66-70 | with S and K strictly positive, every input the bounds admit can be priced |
| BlackScholes.OptionApp | OptionPricing_BSM_european.py:66-80 | inputs below a widget minimum are refused; on the rest the app succeeds exactly when the price is defined, failing with the formula's own error otherwise, and draws the payoff, with the computed price as premium, over 500 evenly spaced spot prices from 0.5 S to 1.5 S, non-decreasing for a call and non-increasing for a put |
| BlackScholes.OptionAppCorrected | OptionPricing_BSM_european.py:66-67 | with strictly positive spot and strike required, the app succeeds exactly on the inputs it admits and agrees with the app as written there |
| PriceBrowser.CsvFiles | StockPricePlotter.py:19 | every offered name ends in ".csv" |
| PriceBrowser.CsvFilesSelectsCsvNames | StockPricePlotter.py:19 | exactly the names ending in ".csv" (case-sensitive) are offered, in listing order |
| PriceBrowser.SplitExt | StockPricePlotter.py:22 | the stem and extension concatenate to the name; an extension is split off exactly when the last dot lies after the last '/' and some non-dot character lies between them, and then it runs from that dot |
| PriceBrowser.DisplayName | StockPricePlotter.py:22 | the display name is a prefix of the file name, and the whole name when it has no dot |
| PriceBrowser.DisplayNameRoundTrip | StockPricePlotter.py:22-28 | display name + ".csv" gives the file back exactly when something other than dots precedes ".csv"; otherwise the display name is the whole file name |
| PriceBrowser.DisplayNames | StockPricePlotter.py:22 | the drop-down has one display name per listed file, in order |
| PriceBrowser.SelectedFile | StockPricePlotter.py:19-28 | the opened file is the chosen listed file exactly when its stem has a non-dot character, and "None.csv" when nothing is listed |
| PriceBrowser.FirstMatch | StockPricePlotter.py:31-35 | the lookup finds the first listing whose ticker equals the selection, and finds none exactly when no ticker equals it |
| PriceBrowser.TickerInfo | StockPricePlotter.py:31-39 | the app shows the name and exchange of the first matching listing, and only the fallback message exactly when no listing matches |
| PriceBrowser.InDateRange | StockPricePlotter.py:59 | every kept row has start <= date <= end |
| PriceBrowser.InDateRangeKeepsExactly | StockPricePlotter.py:59 | a row is kept exactly when its date lies in [start, end], both ends included, and the kept rows stay in their original order |
| PriceBrowser.InDateRangeReversedIsEmpty | archive/streamlit.py:39 | a start date after the end date keeps no rows |
| PriceBrowser.DefaultRangeKeepsAll | StockPricePlotter.py:49-59 | the default range, from the earliest to the latest date, keeps every row |

## Left out

- Plotting, Streamlit widgets and page text in every script: they only display results.
- File-system and CSV input (`os.listdir`, `pd.read_csv`, `pd.to_datetime`): the data arrive as sequences of records, with dates as day numbers.
- `streamlit.py` at the top level: it lists CSV files and plots them, and the filter it applies is modelled through `StockPricePlotter.py`.
- Random number generation (`np.random.seed`, `standard_normal`): the draws are an input matrix.
- `np.linalg.lstsq`: the coefficients come from an oracle, so least-squares optimality is not modelled.
- Floating-point rounding, overflow and NaN propagation: arithmetic is on exact reals.
- Concrete values of `exp`, `log`, `sqrt` and the normal CDF: only the laws in `Analytic.Lawful` are assumed.
- Monte Carlo statistics such as convergence, or an American put being worth at least the European one: these are not deductive facts about one run.
- The Canadian holiday rules and the pandas month offset with day clipping: they are parameters of `CorporateBond.Calendar`.
- CorporateBond.Calendar: the script calls `Canada().add_business_days(d, 1)` (corporateBond.py:16). The model assumes this method exists and returns the next business day. The calendar library is not part of this model, so whether the method exists under that name, or the call raises AttributeError on every holiday, is not settled here.
- The self-import `import archive.streamlit as st`: the model takes `st` to be the Streamlit library. As written, the import runs archive/streamlit.py, whose own line 3 self-import binds a partially initialised module, so `st.selectbox` there would raise AttributeError before any modelled line runs.
- The call variant of the American option: the script prices only a put.
- AmericanOptions.AmericanPutPrice: the empty mean yields NaN in Python, and the model reports it as the error `NoPaths`.
- AmericanOptions.BackwardInduction: its contract fixes the result as the backward recursion. The [0, K) bound is carried by `AmericanOptions.BackwardKeepsRange` about that recursion.
- AmericanOptions.Params: N and M are natural numbers. A negative N makes `np.zeros` raise, M = -1 makes `S[:, 0] = S0` raise IndexError, and M <= -2 makes `np.zeros` raise; these inputs are outside the model.
- YieldCurve.ParseInt: Python's `int()` also accepts surrounding whitespace (`int(" 3")` is 3), underscores between digits (`int("1_0")` is 10) and non-ASCII decimal digits; the model accepts only an optional sign and ASCII digits and returns None for the rest.
- YieldCurve.TenorMonths: `int()` also accepts surrounding whitespace, underscores between digits and non-ASCII digits; the model parses only an optional sign and ASCII digits.
- YieldCurve.Coerce: what `pd.to_numeric` accepts is a parameter, not modelled text parsing.
- PriceBrowser.DefaultRangeKeepsAll: the clamping of `st.date_input` to [min_date, max_date] is not modelled; the dates are taken as given.
- Listing columns: only the ticker, name and exchange columns of the eight listing columns are modelled, the ones the app reads.

## Findings

| source | as written | input that shows it | evidently intended | confidence | as-written member | corrected member |
|---|---|---|---|---|---|---|
| OptionPricing_BSM_european.py:66-67 | spot and strike inputs accept `min_value=0.0` | S = 0 makes `math.log(S / K)` fail; K = 0 makes `S / K` fail (defaults for T, r and sigma) | strictly positive spot and strike | not executed | BlackScholes.InputBoundsAsWrittenAdmitFailures | BlackScholes.OptionAppCorrected |

=== FILE: american_options.dfy ===
/** Longstaff-Schwartz least-squares Monte Carlo pricing of an American put
    (AmericanOptions.py).

    The random draws are an input (`draws[t - 1][i]` is the standard-normal variate of
    path `i` at step `t`, in the order numpy draws them), the exponential and square root
    are abstract (`Analytic.Functions`), and the least-squares solve is an oracle `fit`
    that receives exactly the regressors and responses the script builds. What remains is
    a deterministic state machine over the cash-flow vector. */
module AmericanOptions {
  import opened Results
  import opened Seqs
  import opened Analytic

  /** The script's parameters: spot, strike, maturity, rate, volatility,
      number of paths and number of time steps. */
  datatype Params = Params(S0: real, K: real, T: real, r: real, sigma: real, N: nat, M: nat)

  /** The coefficients of the quadratic continuation-value fit `c0 + c1 x + c2 x^2`. */
  datatype Coeffs = Coeffs(c0: real, c1: real, c2: real)

  /** A least-squares solver: regressors X and responses Y to fitted coefficients. */
  type Fit = (seq<real>, seq<real>) -> Coeffs

  /** Row `i` is path `i`; column `t` is time step `t`. */
  type Matrix = seq<seq<real>>

  datatype PricingError =
    | ZeroTimeSteps   // `T / M` raises ZeroDivisionError when M is 0
    | NoPaths         // `np.mean` of an empty vector is NaN

  predicate PositivePrices(S: Matrix) {
    forall i, t :: 0 <= i < |S| && 0 <= t < |S[i]| ==> S[i][t] > 0.0
  }

  /** Every cash flow lies in [0, K). */
  predicate InRange(cf: seq<real>, K: real) {
    forall i :: 0 <= i < |cf| ==> 0.0 <= cf[i] < K
  }

  predicate DrawsShaped(p: Params, draws: Matrix) {
    |draws| == p.M && forall k :: 0 <= k < |draws| ==> |draws[k]| == p.N
  }

  // ---------------------------------------------------------------------------
  // Path simulation
  // ---------------------------------------------------------------------------

  function Dt(p: Params): real
    requires p.M > 0
  {
    p.T / (p.M as real)
  }

  /** `exp(-r dt)`, the one-step discount factor. */
  function DiscountFactor(f: Functions, p: Params): real
    requires p.M > 0
  {
    f.exp(-p.r * Dt(p))
  }

  /** With a non-negative rate and maturity the discount factor lies in (0, 1]. */
  lemma DiscountFactorInUnit(f: Functions, p: Params)
    requires Lawful(f) && p.M > 0 && p.r >= 0.0 && p.T >= 0.0
    ensures 0.0 < DiscountFactor(f, p) <= 1.0
  {
  }

  /** The lognormal growth factor of one step for one standard-normal draw. */
  function Growth(f: Functions, p: Params, z: real): real
    requires p.M > 0
  {
    f.exp((p.r - 0.5 * p.sigma * p.sigma) * Dt(p) + p.sigma * f.sqrt(Dt(p)) * z)
  }

  /** The simulated price of path `i` at step `t`. */
  function PathPrice(f: Functions, p: Params, draws: Matrix, i: nat, t: nat): (s: real)
    requires p.M > 0 && DrawsShaped(p, draws) && i < p.N && t <= p.M
    ensures Lawful(f) && p.S0 > 0.0 ==> s > 0.0
    decreases t
  {
    if t == 0 then p.S0
    else
      var prev := PathPrice(f, p, draws, i, t - 1);
      var g := Growth(f, p, draws[t - 1][i]);
      assert Lawful(f) && p.S0 > 0.0 ==> prev > 0.0 && g > 0.0 && prev * g > 0.0;
      prev * g
  }

  /** The N x (M + 1) matrix of simulated prices. */
  function SimulatePaths(f: Functions, p: Params, draws: Matrix): (S: Matrix)
    requires p.M > 0 && DrawsShaped(p, draws)
    ensures |S| == p.N && Rectangular(S, p.M + 1)
    ensures forall i :: 0 <= i < p.N ==> S[i][0] == p.S0
    ensures Lawful(f) && p.S0 > 0.0 ==> PositivePrices(S)
  {
    seq(p.N, i requires 0 <= i < p.N =>
      seq(p.M + 1, t requires 0 <= t <= p.M => PathPrice(f, p, draws, i, t)))
  }

  /** The growth factors of path `i` over steps 1..t, in order. */
  function Growths(f: Functions, p: Params, draws: Matrix, i: nat, t: nat): (g: seq<real>)
    requires p.M > 0 && DrawsShaped(p, draws) && i < p.N && t <= p.M
    ensures |g| == t
    ensures forall k {:trigger g[k]} :: 0 <= k < t ==> g[k] == Growth(f, p, draws[k][i])
  {
    seq(t, k requires 0 <= k < t => Growth(f, p, draws[k][i]))
  }

  /** The price of path `i` at step `t` is S0 times the product of its first `t` growth
      factors. */
  lemma {:induction false} PathPriceClosedForm(f: Functions, p: Params, draws: Matrix, i: nat, t: nat)
    requires p.M > 0 && DrawsShaped(p, draws) && i < p.N && t <= p.M
    ensures PathPrice(f, p, draws, i, t) == p.S0 * Product(Growths(f, p, draws, i, t))
    decreases t
  {
    if t > 0 {
      PathPriceClosedForm(f, p, draws, i, t - 1);
      var g := Growths(f, p, draws, i, t);
      assert g[..t - 1] == Growths(f, p, draws, i, t - 1);
      var prev, last := Product(g[..t - 1]), g[t - 1];
      assert p.S0 * (prev * last) == (p.S0 * prev) * last;
    }
  }

  /** Every entry of the simulated matrix is S0 times the product of the growth factors
      of that path's draws up to its step. */
  lemma SimulatedPricesClosedForm(f: Functions, p: Params, draws: Matrix)
    requires p.M > 0 && DrawsShaped(p, draws)
    ensures forall i, t :: 0 <= i < p.N && 0 <= t <= p.M ==>
              SimulatePaths(f, p, draws)[i][t] == p.S0 * Product(Growths(f, p, draws, i, t))
  {
    forall i, t | 0 <= i < p.N && 0 <= t <= p.M
      ensures SimulatePaths(f, p, draws)[i][t] == p.S0 * Product(Growths(f, p, draws, i, t))
    {
      PathPriceClosedForm(f, p, draws, i, t);
    }
  }

  // ---------------------------------------------------------------------------
  // Backward induction
  // ---------------------------------------------------------------------------

  /** The payoff at maturity, `max(K - S[i, M], 0)` for every path. */
  function TerminalCashFlows(S: Matrix, M: nat, K: real): (cf: seq<real>)
    requires Rectangular(S, M + 1)
    ensures |cf| == |S|
    ensures forall i :: 0 <= i < |S| ==> cf[i] >= 0.0
    ensures forall i {:trigger cf[i]} :: 0 <= i < |S| ==> (K > S[i][M] ==> cf[i] == K - S[i][M])
    ensures forall i {:trigger cf[i]} :: 0 <= i < |S| ==> (K <= S[i][M] ==> cf[i] == 0.0)
    ensures K > 0.0 && PositivePrices(S) ==> InRange(cf, K)
  {
    seq(|S|, i requires 0 <= i < |S| => Max0(K - S[i][M]))
  }

  /** The prices of every path at step `t`. */
  function Column(S: Matrix, t: nat): (col: seq<real>)
    requires forall i :: 0 <= i < |S| ==> t < |S[i]|
    ensures |col| == |S|
    ensures forall i {:trigger col[i]} :: 0 <= i < |S| ==> col[i] == S[i][t]
  {
    seq(|S|, i requires 0 <= i < |S| => S[i][t])
  }

  /** The paths strictly in the money at a step, in path order (`np.where(K > S[:, t])[0]`). */
  function InTheMoney(col: seq<real>, K: real): (itm: seq<nat>)
    ensures forall k :: 0 <= k < |itm| ==> itm[k] < |col| && K > col[itm[k]]
    ensures forall i :: 0 <= i < |col| && K > col[i] ==> i in itm
  {
    IndicesWhere(col, x => K > x)
  }

  /** The selected paths are listed in increasing order, each at most once. */
  lemma InTheMoneyIncreasing(col: seq<real>, K: real)
    ensures StrictlyIncreasing(InTheMoney(col, K))
  {
  }

  /** No path is selected exactly when every price is at or above the strike. */
  lemma InTheMoneyEmpty(col: seq<real>, K: real)
    ensures |InTheMoney(col, K)| == 0 <==> forall i :: 0 <= i < |col| ==> K <= col[i]
  {
    IndicesWhereEmpty(col, x => K > x);
  }

  /** The regressors X: prices of the in-the-money paths. */
  function Regressors(col: seq<real>, K: real): (X: seq<real>)
    ensures |X| == |InTheMoney(col, K)|
  {
    Gather(col, InTheMoney(col, K))
  }

  /** The responses Y: the in-the-money cash flows discounted one step. */
  function Responses(cf: seq<real>, col: seq<real>, K: real, df: real): (Y: seq<real>)
    requires |cf| == |col|
    ensures |Y| == |InTheMoney(col, K)|
  {
    Gather(Scale(cf, df), InTheMoney(col, K))
  }

  /** Row `k` of the regression is the `k`-th in-the-money path: its price, below the
      strike, against its cash flow discounted one step. */
  lemma RegressionRows(cf: seq<real>, col: seq<real>, K: real, df: real)
    requires |cf| == |col|
    ensures forall k :: 0 <= k < |InTheMoney(col, K)| ==>
              var i := InTheMoney(col, K)[k];
              Regressors(col, K)[k] == col[i] < K && Responses(cf, col, K, df)[k] == cf[i] * df
  {
  }

  function Continuation(c: Coeffs, x: real): real {
    c.c0 + c.c1 * x + c.c2 * x * x
  }

  /** Immediate exercise beats the fitted continuation value (strictly). */
  predicate Exercises(c: Coeffs, K: real, x: real) {
    K - x > Continuation(c, x)
  }

  /** The position of `i` in `idx`, or -1 when it does not occur. */
  function Position(idx: seq<nat>, i: nat): (k: int)
    ensures -1 <= k < |idx|
    ensures k == -1 <==> i !in idx
    ensures k >= 0 ==> idx[k] == i
    decreases |idx|
  {
    if |idx| == 0 then -1
    else if idx[|idx| - 1] == i then |idx| - 1
    else Position(idx[..|idx| - 1], i)
  }

  /** What one path holds after the exercise decision: the exercise value `K - x` when the
      path is in the money and exercising beats the continuation estimate, else `v`. */
  function PathValue(c: Coeffs, K: real, x: real, v: real): real {
    if K > x && Exercises(c, K, x) then K - x else v
  }

  /** `cf[idx[mask]] = vals[mask]`: the masked positions receive the new values. A position
      listed more than once takes its last listing, masked or not, which agrees with numpy
      only for the repeat-free index lists `np.where` produces. */
  function Overwrite(cf: seq<real>, idx: seq<nat>, vals: seq<real>, mask: seq<bool>): (r: seq<real>)
    requires |idx| == |vals| == |mask|
    ensures |r| == |cf|
  {
    seq(|cf|, i requires 0 <= i < |cf| =>
      var k := Position(idx, i);
      if k >= 0 && mask[k] then vals[k] else cf[i])
  }

  /** Positions outside `idx` keep their value; with distinct (increasing) positions,
      position `idx[k]` holds `vals[k]` when `mask[k]` and keeps its value otherwise. */
  lemma OverwriteEffect(cf: seq<real>, idx: seq<nat>, vals: seq<real>, mask: seq<bool>)
    requires |idx| == |vals| == |mask|
    requires forall k :: 0 <= k < |idx| ==> idx[k] < |cf|
    ensures forall i :: 0 <= i < |cf| && i !in idx ==> Overwrite(cf, idx, vals, mask)[i] == cf[i]
    ensures StrictlyIncreasing(idx) ==>
              forall k :: 0 <= k < |idx| ==>
                Overwrite(cf, idx, vals, mask)[idx[k]] == (if mask[k] then vals[k] else cf[idx[k]])
  {
  }

  function Scale(cf: seq<real>, df: real): (r: seq<real>)
    ensures |r| == |cf|
    ensures forall i {:trigger r[i]} :: 0 <= i < |cf| ==> r[i] == cf[i] * df
  {
    seq(|cf|, i requires 0 <= i < |cf| => cf[i] * df)
  }

  /** The coefficients the solver returns at a step. */
  function StepCoeffs(cf: seq<real>, col: seq<real>, K: real, df: real, fit: Fit): Coeffs
    requires |cf| == |col|
  {
    fit(Regressors(col, K), Responses(cf, col, K, df))
  }

  /** `exercise_value = K - X`. */
  function ExerciseValues(X: seq<real>, K: real): (v: seq<real>)
    ensures |v| == |X|
    ensures forall k {:trigger v[k]} :: 0 <= k < |X| ==> v[k] == K - X[k]
  {
    seq(|X|, k requires 0 <= k < |X| => K - X[k])
  }

  /** `exercise = exercise_value > continuation_value`. */
  function ExerciseMask(X: seq<real>, K: real, c: Coeffs): (m: seq<bool>)
    ensures |m| == |X|
    ensures forall k {:trigger m[k]} :: 0 <= k < |X| ==> m[k] == Exercises(c, K, X[k])
  {
    seq(|X|, k requires 0 <= k < |X| => Exercises(c, K, X[k]))
  }

  /** The cash flows after the exercised in-the-money paths take their exercise value. */
  function Exercised(cf: seq<real>, col: seq<real>, K: real, c: Coeffs): (o: seq<real>)
    requires |cf| == |col|
    ensures |o| == |cf|
  {
    var X := Regressors(col, K);
    Overwrite(cf, InTheMoney(col, K), ExerciseValues(X, K), ExerciseMask(X, K, c))
  }

  /** Path by path: an entry is replaced by `K - x_i` exactly when path `i` is in the money
      and exercising beats the continuation estimate; every other entry keeps its value. */
  lemma ExercisedEffect(cf: seq<real>, col: seq<real>, K: real, c: Coeffs)
    requires |cf| == |col|
    ensures forall i :: 0 <= i < |cf| ==>
              Exercised(cf, col, K, c)[i]
              == PathValue(c, K, col[i], cf[i])
  {
  }

  /** The exercise decision and discount of a step at which some path is in the money,
      path by path under coefficients `c`: path `i` holds `(K - x_i) * df` if it is in
      the money and exercising beats the continuation estimate, and `cf[i] * df` if not. */
  function Rollback(cf: seq<real>, col: seq<real>, K: real, c: Coeffs, df: real): (r: seq<real>)
    requires |cf| == |col|
    ensures |r| == |cf|
    ensures forall i {:trigger r[i]} :: 0 <= i < |cf| ==> r[i] == PathValue(c, K, col[i], cf[i]) * df
  {
    seq(|cf|, i requires 0 <= i < |cf| => PathValue(c, K, col[i], cf[i]) * df)
  }

  /** The script's own formulation (overwrite the exercised in-the-money entries through
      the index list, then discount the whole vector) computes exactly `Rollback`. */
  lemma RollbackFollowsScript(cf: seq<real>, col: seq<real>, K: real, c: Coeffs, df: real)
    requires |cf| == |col|
    ensures Rollback(cf, col, K, c, df) == Scale(Exercised(cf, col, K, c), df)
  {
    ExercisedEffect(cf, col, K, c);
    ScaledPathValues(Exercised(cf, col, K, c), cf, col, K, c, df);
  }

  /** Discounting a vector that holds the path values gives `Rollback`. */
  lemma ScaledPathValues(o: seq<real>, cf: seq<real>, col: seq<real>, K: real, c: Coeffs, df: real)
    requires |o| == |cf| == |col|
    requires forall i :: 0 <= i < |o| ==> o[i] == PathValue(c, K, col[i], cf[i])
    ensures Scale(o, df) == Rollback(cf, col, K, c, df)
  {
    var r := Rollback(cf, col, K, c, df);
    assert forall i :: 0 <= i < |o| ==> Scale(o, df)[i] == r[i];
  }

  lemma DiscountKeepsRange(v: real, df: real, K: real)
    requires 0.0 <= v < K && 0.0 < df <= 1.0
    ensures 0.0 <= v * df < K
  {
  }

  /** One path's value after a step stays in [0, K) when it was there before. */
  lemma PathValueKeepsRange(c: Coeffs, K: real, x: real, v: real, df: real)
    requires 0.0 <= v < K && x > 0.0 && 0.0 < df <= 1.0
    ensures 0.0 <= PathValue(c, K, x, v) * df < K
  {
    DiscountKeepsRange(PathValue(c, K, x, v), df, K);
  }

  /** Whatever coefficients the solver returns, the step keeps every cash flow in [0, K),
      given positive prices and df in (0, 1]. */
  lemma RollbackKeepsRange(cf: seq<real>, col: seq<real>, K: real, c: Coeffs, df: real)
    requires |cf| == |col| && InRange(cf, K)
    requires forall i :: 0 <= i < |col| ==> col[i] > 0.0
    requires 0.0 < df <= 1.0
    ensures InRange(Rollback(cf, col, K, c, df), K)
  {
    var r := Rollback(cf, col, K, c, df);
    forall i | 0 <= i < |r|
      ensures 0.0 <= r[i] < K
    {
      PathValueKeepsRange(c, K, col[i], cf[i], df);
    }
  }

  /** One iteration of the loop at a time step whose prices are `col` (`S[:, t]`): when no
      path is in the money the vector is left exactly as it was, neither refitted nor
      discounted; otherwise the coefficients are fitted and the step rolls back. */
  function Step(cf: seq<real>, col: seq<real>, K: real, df: real, fit: Fit): (r: seq<real>)
    requires |cf| == |col|
    ensures |r| == |cf|
    ensures (forall i :: 0 <= i < |col| ==> K <= col[i]) ==> r == cf
    ensures (exists i :: 0 <= i < |col| && K > col[i]) ==>
              r == Rollback(cf, col, K, StepCoeffs(cf, col, K, df, fit), df)
  {
    InTheMoneyEmpty(col, K);
    if |InTheMoney(col, K)| == 0 then cf
    else Rollback(cf, col, K, StepCoeffs(cf, col, K, df, fit), df)
  }

  /** A step keeps every cash flow in [0, K), given positive prices and df in (0, 1]. */
  lemma StepKeepsRange(cf: seq<real>, col: seq<real>, K: real, df: real, fit: Fit)
    requires |cf| == |col| && InRange(cf, K)
    requires forall i :: 0 <= i < |col| ==> col[i] > 0.0
    requires 0.0 < df <= 1.0
    ensures InRange(Step(cf, col, K, df, fit), K)
  {
    if |InTheMoney(col, K)| > 0 {
      RollbackKeepsRange(cf, col, K, StepCoeffs(cf, col, K, df, fit), df);
    }
  }

  /** The loop `for t in range(t0, 0, -1)` run on `cf0` until the loop variable reaches
      `t`: iterations t0, t0 - 1, ..., t + 1 have run, in that order, each reading its
      own column of `S`. With `t == 0` this is the whole loop. */
  function Backward(cf0: seq<real>, S: Matrix, t0: nat, t: nat, K: real, df: real, fit: Fit): (r: seq<real>)
    requires t <= t0 && |cf0| == |S| && forall i :: 0 <= i < |S| ==> t0 < |S[i]|
    ensures |r| == |cf0|
    decreases t0 - t
  {
    if t == t0 then cf0
    else Step(Backward(cf0, S, t0, t + 1, K, df, fit), Column(S, t + 1), K, df, fit)
  }

  /** The whole backward loop keeps every cash flow in [0, K). */
  lemma BackwardKeepsRange(cf0: seq<real>, S: Matrix, M: nat, K: real, df: real, fit: Fit)
    requires M >= 1 && |cf0| == |S| && Rectangular(S, M + 1)
    requires InRange(cf0, K) && PositivePrices(S) && 0.0 < df <= 1.0
    ensures InRange(Backward(cf0, S, M - 1, 0, K, df, fit), K)
  {
    var cf, t := cf0, M - 1;
    while t > 0
      invariant t <= M - 1
      invariant cf == Backward(cf0, S, M - 1, t, K, df, fit)
      invariant InRange(cf, K)
    {
      var col := Column(S, t);
      StepKeepsRange(cf, col, K, df, fit);
      assert Backward(cf0, S, M - 1, t - 1, K, df, fit) == Step(cf, col, K, df, fit);
      cf, t := Step(cf, col, K, df, fit), t - 1;
    }
  }

  /** The values the loop variable of `for t in range(M - 1, 0, -1)` takes, in order:
      M - 1, M - 2, ..., 1, so step 0 (where every path is still at S0) is never a
      decision point and M = 1 makes no decision at all. */
  method DecisionTimes(M: nat) returns (times: seq<nat>)
    requires M >= 1
    ensures |times| == M - 1
    ensures forall k {:trigger times[k]} :: 0 <= k < |times| ==> times[k] == M - 1 - k
    ensures forall k :: 0 <= k < |times| ==> 1 <= times[k] < M
  {
    times := [];
    var t := M - 1;
    while t > 0
      invariant t <= M - 1
      invariant |times| == M - 1 - t
      invariant forall k {:trigger times[k]} :: 0 <= k < |times| ==> times[k] == M - 1 - k
    {
      times := times + [t];
      t := t - 1;
    }
  }

  /** The loop as the script writes it: one `Step` per decision time, latest first, each
      reading the column of its own time. */
  method BackwardInduction(cf0: seq<real>, S: Matrix, M: nat, K: real, df: real, fit: Fit)
    returns (cf: seq<real>)
    requires M >= 1 && |cf0| == |S| && Rectangular(S, M + 1)
    ensures cf == Backward(cf0, S, M - 1, 0, K, df, fit)
  {
    var times := DecisionTimes(M);
    cf := cf0;
    var k := 0;
    while k < |times|
      invariant k <= |times|
      invariant cf == Backward(cf0, S, M - 1, M - 1 - k, K, df, fit)
    {
      var col := Column(S, times[k]);
      cf := Step(cf, col, K, df, fit);
      k := k + 1;
    }
  }

  /** The loop reads only the columns of its decision times: two price matrices that agree
      on columns 1..M - 1 give the same cash flows, so neither column 0 nor the maturity
      column M influences the loop. */
  lemma BackwardReadsOnlyDecisionColumns(cf0: seq<real>, S: Matrix, S': Matrix, M: nat,
                                         K: real, df: real, fit: Fit)
    requires M >= 1 && |cf0| == |S| == |S'| && Rectangular(S, M + 1) && Rectangular(S', M + 1)
    requires forall i, u :: 0 <= i < |S| && 1 <= u < M ==> S[i][u] == S'[i][u]
    ensures Backward(cf0, S, M - 1, 0, K, df, fit) == Backward(cf0, S', M - 1, 0, K, df, fit)
  {
    var t := M - 1;
    while t > 0
      invariant t <= M - 1
      invariant Backward(cf0, S, M - 1, t, K, df, fit) == Backward(cf0, S', M - 1, t, K, df, fit)
    {
      ColumnsAgree(S, S', t);
      var cf := Backward(cf0, S, M - 1, t, K, df, fit);
      assert Backward(cf0, S', M - 1, t - 1, K, df, fit) == Step(cf, Column(S, t), K, df, fit);
      t := t - 1;
    }
  }

  /** When no path is ever in the money at a decision time, the loop returns the terminal
      cash flows untouched: no refit and no discount. */
  lemma BackwardNeverInTheMoney(cf0: seq<real>, S: Matrix, M: nat, K: real, df: real, fit: Fit)
    requires M >= 1 && |cf0| == |S| && Rectangular(S, M + 1)
    requires forall i, u :: 0 <= i < |S| && 1 <= u < M ==> K <= S[i][u]
    ensures Backward(cf0, S, M - 1, 0, K, df, fit) == cf0
  {
    var t := M - 1;
    while t > 0
      invariant t <= M - 1
      invariant Backward(cf0, S, M - 1, t, K, df, fit) == cf0
    {
      var col := Column(S, t);
      assert forall i :: 0 <= i < |col| ==> K <= col[i];
      t := t - 1;
    }
  }

  lemma ColumnsAgree(S: Matrix, S': Matrix, t: nat)
    requires |S| == |S'| && forall i :: 0 <= i < |S| ==> t < |S[i]| && t < |S'[i]|
    requires forall i :: 0 <= i < |S| ==> S[i][t] == S'[i][t]
    ensures Column(S, t) == Column(S', t)
  {
  }

  // ---------------------------------------------------------------------------
  // Price
  // ---------------------------------------------------------------------------

  function Mean(s: seq<real>): real
    requires |s| > 0
  {
    Sum(s) / (|s| as real)
  }

  /** The sum of cash flows in [0, K) lies in [0, n K). */
  lemma {:induction false} SumInRange(s: seq<real>, K: real)
    requires |s| > 0 && InRange(s, K)
    ensures 0.0 <= Sum(s) < (|s| as real) * K
    decreases |s|
  {
    if |s| > 1 {
      SumInRange(s[1..], K);
    }
  }

  /** The mean of cash flows in [0, K) lies in [0, K). */
  lemma MeanInRange(s: seq<real>, K: real)
    requires |s| > 0 && InRange(s, K)
    ensures 0.0 <= Mean(s) < K
  {
    SumInRange(s, K);
    var n := |s| as real;
    assert Mean(s) * n == Sum(s);
  }

  /** `np.mean(cf) * df`: the mean cash flow, discounted one step more. */
  function DiscountedMean(cf: seq<real>, df: real): real
    requires |cf| > 0
  {
    Mean(cf) * df
  }

  /** The discounted mean of cash flows in [0, K) lies in [0, K) when df is in (0, 1]. */
  lemma DiscountedMeanInRange(cf: seq<real>, df: real, K: real)
    requires |cf| > 0 && InRange(cf, K) && 0.0 < df <= 1.0
    ensures 0.0 <= DiscountedMean(cf, df) < K
  {
    MeanInRange(cf, K);
    DiscountKeepsRange(Mean(cf), df, K);
  }

  /** The cash-flow vector after the backward loop over the price matrix `S` with `M`
      steps, starting from the terminal payoff. */
  function FinalCashFlows(S: Matrix, M: nat, K: real, df: real, fit: Fit): (cf: seq<real>)
    requires M > 0 && Rectangular(S, M + 1)
    ensures |cf| == |S|
  {
    Backward(TerminalCashFlows(S, M, K), S, M - 1, 0, K, df, fit)
  }

  /** With positive prices, K > 0 and df in (0, 1], every final cash flow lies in [0, K). */
  lemma FinalCashFlowsInRange(S: Matrix, M: nat, K: real, df: real, fit: Fit)
    requires M > 0 && Rectangular(S, M + 1) && PositivePrices(S)
    requires K > 0.0 && 0.0 < df <= 1.0
    ensures InRange(FinalCashFlows(S, M, K, df, fit), K)
  {
    BackwardKeepsRange(TerminalCashFlows(S, M, K), S, M, K, df, fit);
  }

  /** The whole script: simulate, take the terminal payoff, run the backward loop from
      M - 1 down to 1, and discount the mean once more. */
  function AmericanPutPrice(f: Functions, p: Params, draws: Matrix, fit: Fit): (res: Result<real, PricingError>)
    requires DrawsShaped(p, draws)
    ensures res == Err(ZeroTimeSteps) <==> p.M == 0
    ensures res == Err(NoPaths) <==> p.M > 0 && p.N == 0
  {
    if p.M == 0 then Err(ZeroTimeSteps)
    else if p.N == 0 then Err(NoPaths)
    else
      var df := DiscountFactor(f, p);
      Ok(DiscountedMean(FinalCashFlows(SimulatePaths(f, p, draws), p.M, p.K, df, fit), df))
  }

  /** With S0 > 0, K > 0, r >= 0 and T >= 0 the price lies in [0, K). */
  lemma PriceInRange(f: Functions, p: Params, draws: Matrix, fit: Fit)
    requires DrawsShaped(p, draws) && Lawful(f)
    requires p.S0 > 0.0 && p.K > 0.0 && p.r >= 0.0 && p.T >= 0.0
    ensures AmericanPutPrice(f, p, draws, fit).Ok? ==>
              0.0 <= AmericanPutPrice(f, p, draws, fit).value < p.K
  {
    if p.M > 0 && p.N > 0 {
      DiscountFactorInUnit(f, p);
      var S, df := SimulatePaths(f, p, draws), DiscountFactor(f, p);
      FinalCashFlowsInRange(S, p.M, p.K, df, fit);
      DiscountedMeanInRange(FinalCashFlows(S, p.M, p.K, df, fit), df, p.K);
    }
  }

  /** With a single time step no decision is taken: the price is the discounted mean of
      the terminal payoff. */
  lemma SingleStepIsTerminalPayoff(f: Functions, p: Params, draws: Matrix, fit: Fit)
    requires DrawsShaped(p, draws) && p.M == 1 && p.N > 0
    ensures AmericanPutPrice(f, p, draws, fit)
            == Ok(DiscountedMean(TerminalCashFlows(SimulatePaths(f, p, draws), 1, p.K),
                                 DiscountFactor(f, p)))
  {
  }
}

=== FILE: analytic.dfy ===
/** The transcendental and library functions the scripts call (`exp`, `log`, `sqrt`,
    `norm.cdf`), kept abstract: the model receives them as values and assumes only the
    few laws it states in `Lawful`. */
module Analytic {

  datatype Functions = Functions(
    exp: real -> real,
    log: real -> real,
    sqrt: real -> real,
    cdf: real -> real)

  /** The only facts about the abstract functions that the proofs use. */
  ghost predicate Lawful(f: Functions) {
    && (forall x :: f.exp(x) > 0.0)
    && (forall x :: x <= 0.0 ==> f.exp(x) <= 1.0)
    && (forall x :: x > 0.0 ==> f.sqrt(x) > 0.0)
    && f.sqrt(0.0) == 0.0
    && (forall x :: f.cdf(x) + f.cdf(-x) == 1.0)
  }

  /** `np.maximum(x, 0)` on a single value. */
  function Max0(x: real): (r: real)
    ensures r >= 0.0 && r >= x
    ensures r == x || r == 0.0
  {
    if x > 0.0 then x else 0.0
  }
}

=== FILE: black_scholes.dfy ===
/** Black-Scholes pricing of a European call or put and its payoff diagram
    (OptionPricing_BSM_european.py and its duplicate OptionPricing_BSM_european_v2.py).

    `log`, `exp`, `sqrt` and the standard normal CDF are abstract (`Analytic.Functions`).
    The exceptions `math.log`, `math.sqrt` and float division raise are modelled as errors,
    in the order the expression on line 23 evaluates them. */
module BlackScholes {
  import opened Results
  import opened Seqs
  import opened Analytic

  datatype PricingError =
    | ZeroDivision  // float division by zero
    | MathDomain    // `math.log` of a non-positive number, `math.sqrt` of a negative one
    | OutOfBounds   // an input below a number widget's minimum, which the widget refuses

  /** The two standardised moneyness terms d1 and d2. */
  datatype Terms = Terms(d1: real, d2: real)

  /** The user inputs of the app: spot, strike, maturity, rate, volatility and option type. */
  datatype Inputs = Inputs(S: real, K: real, T: real, r: real, sigma: real, optionType: string)

  /** Lines 23-24. `S / K` is evaluated first, then its logarithm, then `sqrt(T)`, and the
      final division last, so a zero strike is reported before a non-positive ratio, and
      both before anything about the maturity or the volatility. */
  function D1D2(f: Functions, S: real, K: real, T: real, r: real, sigma: real): (res: Result<Terms, PricingError>)
    ensures res.Ok? <==> K != 0.0 && S / K > 0.0 && T >= 0.0 && sigma * f.sqrt(T) != 0.0
    ensures K == 0.0 ==> res == Err(ZeroDivision)
    ensures K != 0.0 && S / K <= 0.0 ==> res == Err(MathDomain)
    ensures K != 0.0 && S / K > 0.0 && T < 0.0 ==> res == Err(MathDomain)
    ensures K != 0.0 && S / K > 0.0 && T >= 0.0 && sigma * f.sqrt(T) == 0.0 ==> res == Err(ZeroDivision)
    ensures Lawful(f) && K != 0.0 && S / K > 0.0 && T == 0.0 ==> res == Err(ZeroDivision)
    ensures res.Ok? ==> res.value.d2 == res.value.d1 - sigma * f.sqrt(T)
  {
    if K == 0.0 then Err(ZeroDivision)
    else if S / K <= 0.0 then Err(MathDomain)
    else if T < 0.0 then Err(MathDomain)
    else if sigma * f.sqrt(T) == 0.0 then Err(ZeroDivision)
    else
      var d1 := (f.log(S / K) + (r + 0.5 * sigma * sigma) * T) / (sigma * f.sqrt(T));
      Ok(Terms(d1, d1 - sigma * f.sqrt(T)))
  }

  /** `black_scholes_option_price`: the call formula for exactly "call", the put formula
      for every other option type. */
  function Price(f: Functions, S: real, K: real, T: real, r: real, sigma: real, optionType: string)
    : (res: Result<real, PricingError>)
    ensures res.Ok? <==> D1D2(f, S, K, T, r, sigma).Ok?
    ensures res.Err? ==> res.error == D1D2(f, S, K, T, r, sigma).error
  {
    match D1D2(f, S, K, T, r, sigma)
    case Err(e) => Err(e)
    case Ok(d) =>
      if optionType == "call" then
        Ok((S * f.cdf(d.d1)) - (K * f.exp(-r * T) * f.cdf(d.d2)))
      else
        Ok((K * f.exp(-r * T) * f.cdf(-d.d2)) - (S * f.cdf(-d.d1)))
  }

  /** Any option type other than exactly "call" is priced as a put. */
  lemma NonCallIsPut(f: Functions, S: real, K: real, T: real, r: real, sigma: real, optionType: string)
    requires optionType != "call"
    ensures Price(f, S, K, T, r, sigma, optionType) == Price(f, S, K, T, r, sigma, "put")
  {
  }

  /** Put-call parity: with Phi(x) + Phi(-x) = 1, call minus put is `S - K exp(-r T)`. */
  lemma PutCallParity(f: Functions, S: real, K: real, T: real, r: real, sigma: real)
    requires Lawful(f)
    requires Price(f, S, K, T, r, sigma, "call").Ok?
    ensures Price(f, S, K, T, r, sigma, "call").value - Price(f, S, K, T, r, sigma, "put").value
            == S - K * f.exp(-r * T)
  {
  }

  /** With positive spot, strike, maturity and volatility the formula is always defined. */
  lemma PriceDefinedOnPositiveInputs(f: Functions, S: real, K: real, T: real, r: real, sigma: real, optionType: string)
    requires Lawful(f)
    requires S > 0.0 && K > 0.0 && T > 0.0 && sigma > 0.0
    ensures Price(f, S, K, T, r, sigma, optionType).Ok?
  {
  }

  // ---------------------------------------------------------------------------
  // Payoff diagram
  // ---------------------------------------------------------------------------

  /** `np.maximum(S - K, 0) - premium` for "call", `np.maximum(K - S, 0) - premium` for
      anything else, over the whole price vector. */
  function Payoff(S: seq<real>, K: real, premium: real, optionType: string): (p: seq<real>)
    ensures |p| == |S|
    ensures forall i :: 0 <= i < |S| ==> p[i] >= -premium
    ensures optionType == "call" ==> forall i :: 0 <= i < |S| && S[i] <= K ==> p[i] == -premium
    ensures optionType != "call" ==> forall i :: 0 <= i < |S| && S[i] >= K ==> p[i] == -premium
    ensures optionType == "call" ==> forall i :: 0 <= i < |S| && S[i] > K ==> p[i] == S[i] - K - premium
    ensures optionType != "call" ==> forall i :: 0 <= i < |S| && S[i] < K ==> p[i] == K - S[i] - premium
  {
    if optionType == "call" then seq(|S|, i requires 0 <= i < |S| => Max0(S[i] - K) - premium)
    else seq(|S|, i requires 0 <= i < |S| => Max0(K - S[i]) - premium)
  }

  /** The payoff is computed element by element: entry `i` depends on `S[i]` alone. */
  lemma PayoffElementwise(S: seq<real>, S': seq<real>, i: nat, j: nat, K: real, premium: real, optionType: string)
    requires i < |S| && j < |S'| && S[i] == S'[j]
    ensures Payoff(S, K, premium, optionType)[i] == Payoff(S', K, premium, optionType)[j]
  {
  }

  /** On increasing stock prices the call payoff never falls and the put payoff never rises. */
  lemma PayoffMonotone(S: seq<real>, K: real, premium: real, optionType: string)
    requires NonDecreasing(S)
    ensures optionType == "call" ==> NonDecreasing(Payoff(S, K, premium, optionType))
    ensures optionType != "call" ==> NonIncreasing(Payoff(S, K, premium, optionType))
  {
  }

  /** `np.linspace(lo, hi, n)`: `n` evenly spaced points from `lo` to `hi` inclusive. */
  function Linspace(lo: real, hi: real, n: nat): (xs: seq<real>)
    ensures |xs| == n
    ensures n >= 1 ==> xs[0] == lo
    ensures n >= 2 ==> xs[n - 1] == hi
    ensures n >= 2 ==> forall i :: 0 <= i < n - 1 ==> xs[i + 1] - xs[i] == (hi - lo) / ((n - 1) as real)
  {
    if n == 0 then []
    else if n == 1 then [lo]
    else seq(n, i requires 0 <= i < n => lo + (i as real) * ((hi - lo) / ((n - 1) as real)))
  }

  /** For `lo <= hi` the grid is in increasing order. */
  lemma LinspaceNonDecreasing(lo: real, hi: real, n: nat)
    requires lo <= hi
    ensures NonDecreasing(Linspace(lo, hi, n))
  {
    if n >= 2 {
      var xs := Linspace(lo, hi, n);
      var step := (hi - lo) / ((n - 1) as real);
      assert step >= 0.0;
      forall i, j | 0 <= i < j < n
        ensures xs[i] <= xs[j]
      {
        assert xs[j] - xs[i] == ((j - i) as real) * step;
      }
    }
  }

  // ---------------------------------------------------------------------------
  // The app
  // ---------------------------------------------------------------------------

  /** The bounds the number inputs enforce (lines 66-70): spot and strike may be zero. */
  predicate InputBoundsAsWritten(x: Inputs) {
    x.S >= 0.0 && x.K >= 0.0 && x.T >= 0.01 && x.r >= 0.0 && x.sigma >= 0.01
  }

  /** The bounds with strictly positive spot and strike, as the formula needs. */
  predicate InputBoundsCorrected(x: Inputs) {
    x.S > 0.0 && x.K > 0.0 && x.T >= 0.01 && x.r >= 0.0 && x.sigma >= 0.01
  }

  /** The app's computation (lines 74-80) on what the widgets let through: the price,
      then the payoff of the option over 500 spot prices from 0.5 S to 1.5 S with that
      price as the premium. A value below a widget's minimum never reaches the formula. */
  function OptionApp(f: Functions, x: Inputs): (res: Result<(real, seq<real>), PricingError>)
    ensures !InputBoundsAsWritten(x) ==> res == Err(OutOfBounds)
    ensures InputBoundsAsWritten(x) ==>
              (res.Ok? <==> Price(f, x.S, x.K, x.T, x.r, x.sigma, x.optionType).Ok?)
    ensures InputBoundsAsWritten(x) && res.Err? ==>
              res.error == Price(f, x.S, x.K, x.T, x.r, x.sigma, x.optionType).error
    ensures InputBoundsCorrected(x) && Lawful(f) ==> res.Ok?
    ensures res.Ok? ==> Price(f, x.S, x.K, x.T, x.r, x.sigma, x.optionType) == Ok(res.value.0)
    ensures res.Ok? ==> |res.value.1| == 500
    ensures res.Ok? ==> res.value.1 == Payoff(Linspace(0.5 * x.S, 1.5 * x.S, 500), x.K, res.value.0, x.optionType)
    ensures res.Ok? && x.optionType == "call" ==> NonDecreasing(res.value.1)
    ensures res.Ok? && x.optionType != "call" ==> NonIncreasing(res.value.1)
  {
    InputBoundsCorrectedAlwaysPrice(f, x);
    if !InputBoundsAsWritten(x) then Err(OutOfBounds)
    else
      match Price(f, x.S, x.K, x.T, x.r, x.sigma, x.optionType)
      case Err(e) => Err(e)
      case Ok(price) =>
        var prices := Linspace(0.5 * x.S, 1.5 * x.S, 500);
        LinspaceNonDecreasing(0.5 * x.S, 1.5 * x.S, 500);
        PayoffMonotone(prices, x.K, price, x.optionType);
        Ok((price, Payoff(prices, x.K, price, x.optionType)))
  }

  /** The widgets as written let through a zero spot, for which `math.log(0)` fails, and a
      zero strike, for which `S / K` fails: the app stops with those errors. */
  lemma InputBoundsAsWrittenAdmitFailures(f: Functions)
    ensures InputBoundsAsWritten(Inputs(0.0, 100.0, 1.0, 0.05, 0.2, "call"))
    ensures OptionApp(f, Inputs(0.0, 100.0, 1.0, 0.05, 0.2, "call")) == Err(MathDomain)
    ensures InputBoundsAsWritten(Inputs(100.0, 0.0, 1.0, 0.05, 0.2, "call"))
    ensures OptionApp(f, Inputs(100.0, 0.0, 1.0, 0.05, 0.2, "call")) == Err(ZeroDivision)
  {
  }

  /** Every input the corrected bounds admit can be priced. */
  lemma InputBoundsCorrectedAlwaysPrice(f: Functions, x: Inputs)
    ensures Lawful(f) && InputBoundsCorrected(x) ==> Price(f, x.S, x.K, x.T, x.r, x.sigma, x.optionType).Ok?
  {
    if Lawful(f) && InputBoundsCorrected(x) {
      PriceDefinedOnPositiveInputs(f, x.S, x.K, x.T, x.r, x.sigma, x.optionType);
    }
  }

  /** The app with spot and strike required to be strictly positive: whatever the
      widgets now admit is priced and drawn, and it agrees with the app as written on
      every such input. */
  function OptionAppCorrected(f: Functions, x: Inputs): (res: Result<(real, seq<real>), PricingError>)
    ensures Lawful(f) ==> (res.Ok? <==> InputBoundsCorrected(x))
    ensures !InputBoundsCorrected(x) ==> res == Err(OutOfBounds)
    ensures InputBoundsCorrected(x) ==> res == OptionApp(f, x)
  {
    if !InputBoundsCorrected(x) then Err(OutOfBounds) else OptionApp(f, x)
  }
}

=== FILE: corporate_bond.dfy ===
/** The semi-annual cash-flow schedule of a fixed-coupon bond (corporateBond.py,
    `calculate_bond_cashflows`).

    Dates are day numbers. The pandas month offset and the Canadian holiday calendar are
    abstract (`Calendar`): the model fixes only how the script combines them. */
module CorporateBond {
  import opened Seqs

  /** `issue + pd.DateOffset(months=m)`, `Canada().is_holiday(d)` and
      `Canada().add_business_days(d, n)`. */
  datatype Calendar = Calendar(
    addMonths: (int, int) -> int,
    isHoliday: int -> bool,
    addBusinessDays: (int, int) -> int)

  /** One `(payment_date, amount)` tuple of the result. */
  datatype Payment = Payment(date: int, amount: real)

  /** The semi-annual coupon, `par_value * coupon_rate / 2`. */
  function Coupon(par: real, rate: real): real {
    par * rate / 2.0
  }

  /** `len(range(1, maturity_years * 2 + 1))`: two payments a year, none for a
      maturity of zero or fewer years. */
  function PaymentCount(years: int): nat {
    if years <= 0 then 0 else 2 * years
  }

  /** Payment `i` (counting from 1) falls `6 i` months after issue, moved to the next
      business day when that date is a holiday. */
  function PaymentDate(cal: Calendar, issue: int, i: int): int {
    var d := cal.addMonths(issue, 6 * i);
    if cal.isHoliday(d) then cal.addBusinessDays(d, 1) else d
  }

  /** The schedule as a closed form: entry `k` pays on `PaymentDate(k + 1)`; every entry
      pays the coupon except the last, which also repays the principal. */
  function Schedule(cal: Calendar, issue: int, par: real, rate: real, years: int): (cfs: seq<Payment>)
    ensures |cfs| == PaymentCount(years)
  {
    var n := PaymentCount(years);
    seq(n, k requires 0 <= k < n =>
      Payment(PaymentDate(cal, issue, k + 1),
              if k == n - 1 then par + Coupon(par, rate) else Coupon(par, rate)))
  }

  /** The script's first loop: payment `i` for `i` in `range(1, maturity_years * 2 + 1)`,
      each moved to the next business day when it falls on a holiday. */
  method CouponPaymentDates(cal: Calendar, issue: int, years: int) returns (dates: seq<int>)
    ensures |dates| == PaymentCount(years)
    ensures forall k :: 0 <= k < |dates| ==>
              var d := cal.addMonths(issue, 6 * (k + 1));
              dates[k] == (if cal.isHoliday(d) then cal.addBusinessDays(d, 1) else d)
  {
    dates := [];
    var i := 1;
    while i < years * 2 + 1
      invariant 1 <= i <= PaymentCount(years) + 1
      invariant |dates| == i - 1
      invariant forall k :: 0 <= k < |dates| ==> dates[k] == PaymentDate(cal, issue, k + 1)
    {
      var d := cal.addMonths(issue, 6 * i);
      if cal.isHoliday(d) {
        d := cal.addBusinessDays(d, 1);
      }
      dates := dates + [d];
      i := i + 1;
    }
  }

  /** The whole function: the payment dates, then one `(date, amount)` tuple per date in
      the same order, the last one carrying the principal as well. `freq` is accepted
      and never read, so the result is the closed-form schedule whatever it is. */
  method CalculateBondCashflows(cal: Calendar, issue: int, par: real, rate: real, years: int, freq: string)
    returns (cashflows: seq<Payment>)
    ensures cashflows == Schedule(cal, issue, par, rate, years)
    ensures |cashflows| == PaymentCount(years)
    ensures forall k :: 0 <= k < |cashflows| - 1 ==> cashflows[k].amount == par * rate / 2.0
    ensures |cashflows| > 0 ==> cashflows[|cashflows| - 1].amount == par + par * rate / 2.0
  {
    var dates := CouponPaymentDates(cal, issue, years);
    var coupon := par * rate / 2.0;
    cashflows := [];
    var k := 0;
    while k < |dates|
      invariant 0 <= k <= |dates|
      invariant |cashflows| == k
      invariant forall j :: 0 <= j < k ==> cashflows[j].date == dates[j]
      invariant forall j :: 0 <= j < k ==>
                  cashflows[j].amount == (if j == |dates| - 1 then par + coupon else coupon)
    {
      if k == |dates| - 1 {
        cashflows := cashflows + [Payment(dates[k], par + coupon)];
      } else {
        cashflows := cashflows + [Payment(dates[k], coupon)];
      }
      k := k + 1;
    }
    var cfs := Schedule(cal, issue, par, rate, years);
    assert forall j :: 0 <= j < |cfs| ==> cashflows[j] == cfs[j];
  }

  function Amounts(cfs: seq<Payment>): (a: seq<real>)
    ensures |a| == |cfs|
    ensures forall k {:trigger a[k]} :: 0 <= k < |cfs| ==> a[k] == cfs[k].amount
  {
    seq(|cfs|, k requires 0 <= k < |cfs| => cfs[k].amount)
  }

  /** A run of `n - 1` equal amounts followed by a final one sums to the final one plus
      `(n - 1)` times the repeated one. */
  lemma {:induction false} SumRunThenLast(a: seq<real>, c: real, last: real)
    requires |a| > 0 && a[|a| - 1] == last
    requires forall k :: 0 <= k < |a| - 1 ==> a[k] == c
    ensures Sum(a) == last + (|a| - 1) as real * c
    decreases |a|
  {
    if |a| > 1 {
      SumRunThenLast(a[1..], c, last);
    }
  }

  /** Over the life of the bond the holder receives the principal once and the coupon
      `2 * maturity_years` times. */
  lemma ScheduleSum(cal: Calendar, issue: int, par: real, rate: real, years: int)
    requires years >= 1
    ensures Sum(Amounts(Schedule(cal, issue, par, rate, years)))
            == par + (2 * years) as real * Coupon(par, rate)
  {
    var a := Amounts(Schedule(cal, issue, par, rate, years));
    SumRunThenLast(a, Coupon(par, rate), par + Coupon(par, rate));
  }
}

=== FILE: price_browser.dfy ===
/** The selection logic of the stock-price browser (StockPricePlotter.py and its
    predecessor archive/streamlit.py): which files are offered, how a display name maps
    back to a file, which listing row describes the ticker, and which price rows the
    date range keeps.

    The directory listing, the CSV files and the widgets' choices are inputs; dates are
    day numbers. */
module PriceBrowser {
  import opened Results
  import opened Seqs

  /** One row of listings.csv; only the columns the app reads. */
  datatype Listing = Listing(ticker: string, name: string, exchange: string)

  /** One row of a price file. */
  datatype Bar = Bar(date: int, close: real)

  // ---------------------------------------------------------------------------
  // File names
  // ---------------------------------------------------------------------------

  /** `s.endswith(suffix)`, case-sensitive. */
  predicate EndsWith(s: string, suffix: string) {
    |s| >= |suffix| && s[|s| - |suffix|..] == suffix
  }

  predicate IsCsv(name: string) {
    EndsWith(name, ".csv")
  }

  /** `[f for f in os.listdir(directory) if f.endswith('.csv')]`. */
  function CsvFiles(names: seq<string>): (files: seq<string>)
    ensures forall k :: 0 <= k < |files| ==> IsCsv(files[k])
  {
    Filter(names, IsCsv)
  }

  /** Exactly the names ending in ".csv" are offered, in listing order. */
  lemma CsvFilesSelectsCsvNames(names: seq<string>)
    ensures forall n :: n in CsvFiles(names) <==> n in names && IsCsv(n)
    ensures var idx := IndicesWhere(names, IsCsv);
            && StrictlyIncreasing(idx)
            && |CsvFiles(names)| == |idx|
            && forall k :: 0 <= k < |idx| ==> CsvFiles(names)[k] == names[idx[k]]
  {
    forall n
      ensures n in CsvFiles(names) <==> n in names && IsCsv(n)
    {
      FilterMembership(names, IsCsv, n);
    }
    FilterAtIndices(names, IsCsv);
  }

  /** `s.rfind(c)`: the last position holding `c`, or -1. */
  function RFind(s: string, c: char): (k: int)
    ensures -1 <= k < |s|
    ensures k >= 0 ==> s[k] == c
    ensures forall j :: k < j < |s| ==> s[j] != c
    decreases |s|
  {
    if |s| == 0 then -1
    else if s[|s| - 1] == c then |s| - 1
    else RFind(s[..|s| - 1], c)
  }

  /** Some character strictly between positions `lo` and `hi` is not a dot. */
  predicate NonDotBetween(p: string, lo: int, hi: int)
    requires -1 <= lo && hi <= |p|
  {
    exists i :: lo < i < hi && p[i] != '.'
  }

  /** `os.path.splitext(p)` on POSIX: the extension runs from the last dot, provided that
      dot lies in the last path component and is preceded in it by something other than
      dots; otherwise there is no extension. */
  function SplitExt(p: string): (parts: (string, string))
    ensures parts.0 + parts.1 == p
    ensures parts.1 == [] || (parts.1[0] == '.' && '.' !in parts.1[1..] && '/' !in parts.1)
    ensures parts.1 != [] <==>
              RFind(p, '.') > RFind(p, '/') && NonDotBetween(p, RFind(p, '/'), RFind(p, '.'))
    ensures parts.1 != [] ==> parts.0 == p[..RFind(p, '.')]
  {
    var sep := RFind(p, '/');
    var dot := RFind(p, '.');
    if dot > sep && NonDotBetween(p, sep, dot) then
      assert p[..dot] + p[dot..] == p;
      (p[..dot], p[dot..])
    else
      (p, [])
  }

  /** `os.path.splitext(f)[0]`, the name shown in the drop-down. */
  function DisplayName(file: string): (stem: string)
    ensures |stem| <= |file| && stem == file[..|stem|]
    ensures '.' !in file ==> stem == file
  {
    SplitExt(file).0
  }

  /** `f"{selected_file}.csv"`, the file opened for a chosen display name. */
  function FileName(display: string): string {
    display + ".csv"
  }

  /** For a directory entry (no '/') ending in ".csv", mapping its display name back gives
      the entry again exactly when something other than dots precedes ".csv"; for
      ".csv", "..csv" and the like the display name is the whole entry. */
  lemma DisplayNameRoundTrip(file: string)
    requires IsCsv(file) && '/' !in file
    ensures FileName(DisplayName(file)) == file <==> NonDotBetween(file, -1, |file| - 4)
    ensures !NonDotBetween(file, -1, |file| - 4) ==> DisplayName(file) == file
  {
    var n := |file|;
    assert file[n - 4..] == ".csv";
    assert file[n - 4] == '.' && file[n - 3] == 'c' && file[n - 2] == 's' && file[n - 1] == 'v';
    var dot := RFind(file, '.');
    assert dot == n - 4;
    var sep := RFind(file, '/');
    assert sep == -1;
    if NonDotBetween(file, -1, n - 4) {
      assert DisplayName(file) == file[..n - 4];
      assert file[..n - 4] + ".csv" == file;
    } else {
      assert DisplayName(file) == file;
      assert |FileName(file)| == n + 4;
    }
  }

  /** The drop-down entries, one per listed file, in order. */
  function DisplayNames(files: seq<string>): (names: seq<string>)
    ensures |names| == |files|
    ensures forall k {:trigger names[k]} :: 0 <= k < |files| ==> names[k] == DisplayName(files[k])
  {
    seq(|files|, k requires 0 <= k < |files| => DisplayName(files[k]))
  }

  /** The file opened when the user picks entry `choice` of the drop-down (archive
      script, lines 10-19; the same lines 19-28 of the main script): the one listed there,
      provided its name has a non-dot character before ".csv". Directory entries never
      contain '/'. With nothing to offer, the drop-down returns None and the script asks
      for "None.csv". */
  function SelectedFile(names: seq<string>, choice: nat): (file: string)
    requires forall k :: 0 <= k < |names| ==> '/' !in names[k]
    requires |CsvFiles(names)| == 0 || choice < |CsvFiles(names)|
    ensures |CsvFiles(names)| == 0 ==> file == "None.csv"
    ensures |CsvFiles(names)| > 0 ==>
              var listed := CsvFiles(names)[choice];
              file == listed <==> NonDotBetween(listed, -1, |listed| - 4)
  {
    var files := CsvFiles(names);
    if |files| == 0 then FileName("None")
    else
      FilterMembership(names, IsCsv, files[choice]);
      DisplayNameRoundTrip(files[choice]);
      FileName(DisplayNames(files)[choice])
  }

  // ---------------------------------------------------------------------------
  // Ticker information
  // ---------------------------------------------------------------------------

  /** The position of the first listing whose ticker equals `selected`
      (`listings_df[listings_df['ticker'] == selected].iloc[0]`). */
  function FirstMatch(listings: seq<Listing>, selected: string): (k: Option<nat>)
    ensures k.None? <==> forall i :: 0 <= i < |listings| ==> listings[i].ticker != selected
    ensures k.Some? ==> k.value < |listings| && listings[k.value].ticker == selected
    ensures k.Some? ==> forall i :: 0 <= i < k.value ==> listings[i].ticker != selected
    decreases |listings|
  {
    if |listings| == 0 then None
    else if listings[0].ticker == selected then Some(0)
    else
      match FirstMatch(listings[1..], selected)
      case None =>
        assert forall i :: 1 <= i < |listings| ==> listings[i] == listings[1..][i - 1];
        None
      case Some(j) =>
        assert forall i :: 1 <= i < |listings| ==> listings[i] == listings[1..][i - 1];
        Some(j + 1)
  }

  const NoInfoMessage: string := "No information available for the selected ticker."

  /** What the app writes about the selected ticker: name and exchange of the first
      matching listing, or only the fallback message when none matches. */
  function TickerInfo(listings: seq<Listing>, selected: string): (lines: seq<string>)
    ensures lines == [NoInfoMessage] <==> forall i :: 0 <= i < |listings| ==> listings[i].ticker != selected
    ensures (exists i :: 0 <= i < |listings| && listings[i].ticker == selected) ==>
              exists k :: 0 <= k < |listings| && listings[k].ticker == selected
                && (forall i :: 0 <= i < k ==> listings[i].ticker != selected)
                && lines == ["**Name**: " + listings[k].name, "**Exchange**: " + listings[k].exchange]
  {
    match FirstMatch(listings, selected)
    case None => [NoInfoMessage]
    case Some(k) =>
      var lines := ["**Name**: " + listings[k].name, "**Exchange**: " + listings[k].exchange];
      lines
  }

  // ---------------------------------------------------------------------------
  // Date range
  // ---------------------------------------------------------------------------

  predicate Within(start: int, end: int, b: Bar) {
    start <= b.date <= end
  }

  /** `data[(data['Date'] >= start) & (data['Date'] <= end)]`. */
  function InDateRange(data: seq<Bar>, start: int, end: int): (rows: seq<Bar>)
    ensures forall k :: 0 <= k < |rows| ==> start <= rows[k].date <= end
  {
    Filter(data, b => Within(start, end, b))
  }

  /** A row is kept exactly when its date lies in [start, end], both ends included, and
      the kept rows are a subsequence of the data in their original order. */
  lemma InDateRangeKeepsExactly(data: seq<Bar>, start: int, end: int)
    ensures forall b :: b in InDateRange(data, start, end) <==> b in data && start <= b.date <= end
    ensures var idx := IndicesWhere(data, b => Within(start, end, b));
            && StrictlyIncreasing(idx)
            && (forall i :: 0 <= i < |data| ==> (i in idx <==> start <= data[i].date <= end))
            && |InDateRange(data, start, end)| == |idx|
            && forall k :: 0 <= k < |idx| ==> InDateRange(data, start, end)[k] == data[idx[k]]
  {
    var p := (b: Bar) => Within(start, end, b);
    forall b
      ensures b in InDateRange(data, start, end) <==> b in data && start <= b.date <= end
    {
      FilterMembership(data, p, b);
    }
    FilterAtIndices(data, p);
  }

  /** A start after the end keeps nothing. */
  lemma InDateRangeReversedIsEmpty(data: seq<Bar>, start: int, end: int)
    requires start > end
    ensures InDateRange(data, start, end) == []
  {
    FilterDropsAll(data, b => Within(start, end, b));
  }

  /** `data['Date']`: the date column. */
  function Dates(data: seq<Bar>): seq<int> {
    Map(data, (b: Bar) => b.date)
  }

  /** The date pickers' defaults, the earliest and the latest date, keep every row. */
  lemma DefaultRangeKeepsAll(data: seq<Bar>)
    requires |data| > 0
    ensures InDateRange(data, Min(Dates(data)), Max(Dates(data))) == data
  {
    var lo, hi := Min(Dates(data)), Max(Dates(data));
    forall i | 0 <= i < |data|
      ensures Within(lo, hi, data[i])
    {
      assert Dates(data)[i] == data[i].date;
    }
    FilterKeepsAll(data, b => Within(lo, hi, b));
  }
}

=== FILE: results.dfy ===
/** Failure-carrying values shared by every module of the model. */
module Results {

  /** A value that may be absent: a missing ticker, an unparsable cell (NaN). */
  datatype Option<+T> = None | Some(value: T)

  /** The outcome of an operation that the source lets raise an exception. */
  datatype Result<+T, +E> = Ok(value: T) | Err(error: E)
}

=== FILE: seqs.dfy ===
/** Sequence helpers used by several scripts: boolean-mask selection, sums, extremes. */
module Seqs {

  /** Every row of `m` has `width` entries. */
  predicate Rectangular<T>(m: seq<seq<T>>, width: nat) {
    forall i :: 0 <= i < |m| ==> |m[i]| == width
  }

  predicate StrictlyIncreasing(s: seq<nat>) {
    forall k, l :: 0 <= k < l < |s| ==> s[k] < s[l]
  }

  predicate NonDecreasing(s: seq<real>) {
    forall i, j :: 0 <= i < j < |s| ==> s[i] <= s[j]
  }

  predicate NonIncreasing(s: seq<real>) {
    forall i, j :: 0 <= i < j < |s| ==> s[i] >= s[j]
  }

  /** The positions of the elements of `s` that satisfy `p`, in increasing order
      (what `np.where(mask)[0]` returns). */
  function IndicesWhere<T>(s: seq<T>, p: T -> bool): (idx: seq<nat>)
    ensures StrictlyIncreasing(idx)
    ensures forall k :: 0 <= k < |idx| ==> idx[k] < |s| && p(s[idx[k]])
    ensures forall i :: 0 <= i < |s| && p(s[i]) ==> i in idx
    decreases |s|
  {
    if |s| == 0 then []
    else
      var front := IndicesWhere(s[..|s| - 1], p);
      assert forall k :: 0 <= k < |front| ==> s[..|s| - 1][front[k]] == s[front[k]];
      front + (if p(s[|s| - 1]) then [|s| - 1] else [])
  }

  /** No position is selected exactly when no element satisfies `p`. */
  lemma {:induction false} IndicesWhereEmpty<T>(s: seq<T>, p: T -> bool)
    ensures |IndicesWhere(s, p)| == 0 <==> forall i :: 0 <= i < |s| ==> !p(s[i])
    decreases |s|
  {
    if |s| > 0 {
      var front := s[..|s| - 1];
      IndicesWhereEmpty(front, p);
      assert forall i :: 0 <= i < |front| ==> front[i] == s[i];
    }
  }

  /** Boolean-mask selection `s[mask]`: the elements satisfying `p`, in their original order. */
  function Filter<T>(s: seq<T>, p: T -> bool): (r: seq<T>)
    ensures |r| <= |s|
    ensures forall k :: 0 <= k < |r| ==> p(r[k])
    decreases |s|
  {
    if |s| == 0 then []
    else Filter(s[..|s| - 1], p) + (if p(s[|s| - 1]) then [s[|s| - 1]] else [])
  }

  /** The selection is the subsequence of `s` at exactly the positions `IndicesWhere(s, p)`:
      order is preserved and every element satisfying `p` is taken. */
  lemma {:induction false} FilterAtIndices<T>(s: seq<T>, p: T -> bool)
    ensures |Filter(s, p)| == |IndicesWhere(s, p)|
    ensures forall k :: 0 <= k < |Filter(s, p)| ==> Filter(s, p)[k] == s[IndicesWhere(s, p)[k]]
    decreases |s|
  {
    if |s| > 0 {
      var front := s[..|s| - 1];
      FilterAtIndices(front, p);
      var r, idx := Filter(front, p), IndicesWhere(front, p);
      assert forall k :: 0 <= k < |r| ==> r[k] == s[idx[k]];
    }
  }

  /** An element is selected exactly when it occurs in `s` and satisfies `p`. */
  lemma FilterMembership<T>(s: seq<T>, p: T -> bool, x: T)
    ensures x in Filter(s, p) <==> x in s && p(x)
  {
  }

  /** A property every element has is kept by the selection. */
  lemma {:induction false} FilterPreserves<T>(s: seq<T>, p: T -> bool, q: T -> bool)
    requires forall i :: 0 <= i < |s| ==> q(s[i])
    ensures forall k :: 0 <= k < |Filter(s, p)| ==> q(Filter(s, p)[k])
    decreases |s|
  {
    if |s| > 0 {
      FilterPreserves(s[..|s| - 1], p, q);
    }
  }

  /** When every element satisfies `p`, nothing is dropped. */
  lemma {:induction false} FilterKeepsAll<T>(s: seq<T>, p: T -> bool)
    requires forall i :: 0 <= i < |s| ==> p(s[i])
    ensures Filter(s, p) == s
    decreases |s|
  {
    if |s| > 0 {
      var front := s[..|s| - 1];
      assert forall i :: 0 <= i < |front| ==> front[i] == s[i];
      FilterKeepsAll(front, p);
      assert p(s[|s| - 1]);
      assert Filter(s, p) == Filter(front, p) + [s[|s| - 1]];
      assert front + [s[|s| - 1]] == s;
    }
  }

  /** When no element satisfies `p`, the selection is empty. */
  lemma {:induction false} FilterDropsAll<T>(s: seq<T>, p: T -> bool)
    requires forall i :: 0 <= i < |s| ==> !p(s[i])
    ensures Filter(s, p) == []
    decreases |s|
  {
    if |s| > 0 {
      FilterDropsAll(s[..|s| - 1], p);
    }
  }

  /** Integer-array indexing `s[idx]`: the elements at the given positions, in the order
      the positions are listed. */
  function Gather<T>(s: seq<T>, idx: seq<nat>): (r: seq<T>)
    requires forall k :: 0 <= k < |idx| ==> idx[k] < |s|
    ensures |r| == |idx|
    ensures forall k :: 0 <= k < |idx| ==> r[k] == s[idx[k]]
    decreases |idx|
  {
    if |idx| == 0 then []
    else Gather(s, idx[..|idx| - 1]) + [s[idx[|idx| - 1]]]
  }

  /** The product of the elements, 1 for the empty sequence. */
  function Product(s: seq<real>): real
    decreases |s|
  {
    if |s| == 0 then 1.0 else Product(s[..|s| - 1]) * s[|s| - 1]
  }

  function Sum(s: seq<real>): real
    decreases |s|
  {
    if |s| == 0 then 0.0 else s[0] + Sum(s[1..])
  }

  /** The image of every element under `f`, in order (a column projection such as
      `df['Date']`). */
  function Map<A, B>(s: seq<A>, f: A -> B): (r: seq<B>)
    ensures |r| == |s|
    ensures forall i {:trigger r[i]} :: 0 <= i < |s| ==> r[i] == f(s[i])
  {
    seq(|s|, i requires 0 <= i < |s| => f(s[i]))
  }

  /** The smallest element (Python's `min`, pandas' `Series.min`). */
  function Min(s: seq<int>): (m: int)
    requires |s| > 0
    ensures m in s
    ensures forall i :: 0 <= i < |s| ==> m <= s[i]
    decreases |s|
  {
    if |s| == 1 then s[0]
    else
      var rest := Min(s[1..]);
      assert forall i :: 1 <= i < |s| ==> s[i] == s[1..][i - 1];
      if s[0] <= rest then s[0] else rest
  }

  /** The largest element (pandas' `Series.max`). */
  function Max(s: seq<int>): (m: int)
    requires |s| > 0
    ensures m in s
    ensures forall i :: 0 <= i < |s| ==> s[i] <= m
    decreases |s|
  {
    if |s| == 1 then s[0]
    else
      var rest := Max(s[1..]);
      assert forall i :: 1 <= i < |s| ==> s[i] == s[1..][i - 1];
      if s[0] >= rest then s[0] else rest
  }
}

=== FILE: yield_curve.dfy ===
/** The data shaping behind the 3-D US yield-curve plot (us_yield_curve_3d.py): tenor
    columns, numeric coercion and the NaN-row filter, day offsets, tenor-label parsing and
    the transposed yield grid.

    The CSV is already loaded: each row is its date (a day number) and the raw text of its
    tenor cells. `pd.to_numeric(errors='coerce')` on one cell is a parameter `toNumeric`
    (`None` stands for NaN). */
module YieldCurve {
  import opened Results
  import opened Seqs

  datatype RawRow = RawRow(date: int, cells: seq<string>)

  /** A row after numeric coercion: `None` where the cell did not parse. */
  datatype Row = Row(date: int, rates: seq<Option<real>>)

  datatype CurveError =
    | NoCompleteRows          // `min` of an empty date array raises ValueError
    | EmptyLabel              // `tenor[-1]` on an empty label raises IndexError
    | BadTenor(tenor: string) // `int(tenor[:-1])` raises ValueError

  /** The grid the surface is drawn from: tenors in months along X, days since the
      earliest date along Y, and `Z[j][i]` the yield of tenor `j` on kept row `i`. */
  datatype Surface = Surface(tenorMonths: seq<int>, dayOffsets: seq<int>, grid: seq<seq<real>>)

  // ---------------------------------------------------------------------------
  // Columns and rows
  // ---------------------------------------------------------------------------

  /** `df.columns[1:]`: every column after the date column, in order (none when there are
      no columns at all). */
  function Tenors(columns: seq<string>): (tenors: seq<string>)
    ensures |columns| > 0 ==> |tenors| == |columns| - 1
    ensures |columns| == 0 ==> tenors == []
    ensures forall j :: 0 <= j < |tenors| ==> tenors[j] == columns[j + 1]
  {
    if |columns| == 0 then [] else columns[1..]
  }

  /** `df[tenors].apply(pd.to_numeric, errors='coerce')`, cell by cell. */
  function Coerce(raw: seq<RawRow>, toNumeric: string -> Option<real>): (rows: seq<Row>)
    ensures |rows| == |raw|
    ensures forall i {:trigger rows[i]} :: 0 <= i < |raw| ==>
              rows[i].date == raw[i].date && |rows[i].rates| == |raw[i].cells|
    ensures forall i, j {:trigger rows[i].rates[j]} :: 0 <= i < |raw| && 0 <= j < |raw[i].cells| ==>
              rows[i].rates[j] == toNumeric(raw[i].cells[j])
  {
    seq(|raw|, i requires 0 <= i < |raw| =>
      Row(raw[i].date, seq(|raw[i].cells|, j requires 0 <= j < |raw[i].cells| => toNumeric(raw[i].cells[j]))))
  }

  /** No yield of the row is NaN. */
  predicate Complete(row: Row) {
    forall j :: 0 <= j < |row.rates| ==> row.rates[j].Some?
  }

  /** `df.dropna(subset=tenors)`. */
  function DropIncomplete(rows: seq<Row>): (kept: seq<Row>)
    ensures forall k :: 0 <= k < |kept| ==> Complete(kept[k])
  {
    Filter(rows, Complete)
  }

  /** Row `i` survives exactly when it is complete, and the survivors keep their relative
      order: the kept rows are the rows at the increasing positions of the complete ones. */
  lemma DropIncompleteKeepsCompleteRows(rows: seq<Row>)
    ensures var idx := IndicesWhere(rows, Complete);
            && StrictlyIncreasing(idx)
            && (forall i :: 0 <= i < |rows| ==> (i in idx <==> Complete(rows[i])))
            && |DropIncomplete(rows)| == |idx|
            && (forall k :: 0 <= k < |idx| ==> DropIncomplete(rows)[k] == rows[idx[k]])
  {
    FilterAtIndices(rows, Complete);
  }

  // ---------------------------------------------------------------------------
  // Day offsets
  // ---------------------------------------------------------------------------

  /** `(dates - min(dates)).astype('timedelta64[D]')`: days since the earliest date. Dates
      are whole days, so the conversion to days is exact. */
  function DayOffsets(dates: seq<int>): (res: Result<seq<int>, CurveError>)
    ensures res.Err? <==> |dates| == 0
    ensures res.Err? ==> res.error == NoCompleteRows
    ensures res.Ok? ==> |res.value| == |dates|
    ensures res.Ok? ==> forall i :: 0 <= i < |dates| ==> res.value[i] >= 0
    ensures res.Ok? ==> exists i :: 0 <= i < |dates| && res.value[i] == 0
    ensures res.Ok? ==> forall i, j :: 0 <= i < |dates| && 0 <= j < |dates| ==>
              res.value[i] - res.value[j] == dates[i] - dates[j]
  {
    if |dates| == 0 then Err(NoCompleteRows)
    else
      var m := Min(dates);
      var Y := seq(|dates|, i requires 0 <= i < |dates| => dates[i] - m);
      assert forall i :: 0 <= i < |dates| ==> Y[i] == dates[i] - m;
      assert exists i :: 0 <= i < |dates| && dates[i] == m;
      Ok(Y)
  }

  /** The offsets order the rows exactly as their dates do, and the earliest date is day 0. */
  lemma DayOffsetsOrderPreserving(dates: seq<int>)
    requires |dates| > 0
    ensures DayOffsets(dates).Ok?
    ensures forall i, j :: 0 <= i < |dates| && 0 <= j < |dates| ==>
              (dates[i] <= dates[j] <==> DayOffsets(dates).value[i] <= DayOffsets(dates).value[j])
    ensures forall i :: 0 <= i < |dates| && (forall j :: 0 <= j < |dates| ==> dates[i] <= dates[j]) ==>
              DayOffsets(dates).value[i] == 0
  {
  }

  // ---------------------------------------------------------------------------
  // Tenor labels
  // ---------------------------------------------------------------------------

  predicate IsDigit(c: char) {
    '0' <= c <= '9'
  }

  predicate AllDigits(s: string) {
    forall i :: 0 <= i < |s| ==> IsDigit(s[i])
  }

  function DigitValue(c: char): nat
    requires IsDigit(c)
  {
    (c as int) - ('0' as int)
  }

  function DigitChar(d: nat): (c: char)
    requires d < 10
    ensures IsDigit(c) && DigitValue(c) == d
  {
    (('0' as int) + d) as char
  }

  /** The value of a string of decimal digits, most significant first. */
  function DigitsValue(s: string): nat
    requires AllDigits(s)
    decreases |s|
  {
    if |s| == 0 then 0 else 10 * DigitsValue(s[..|s| - 1]) + DigitValue(s[|s| - 1])
  }

  /** An integer literal as `int()` accepts it here: an optional sign followed by one or
      more ASCII digits. */
  predicate IntLiteral(s: string) {
    if |s| > 0 && (s[0] == '-' || s[0] == '+') then |s| > 1 && AllDigits(s[1..])
    else |s| > 0 && AllDigits(s)
  }

  /** `int(s)`: `None` where Python raises ValueError. */
  function ParseInt(s: string): (r: Option<int>)
    ensures r.Some? <==> IntLiteral(s)
  {
    if |s| > 0 && (s[0] == '-' || s[0] == '+') then
      if |s| > 1 && AllDigits(s[1..]) then
        Some(if s[0] == '-' then -(DigitsValue(s[1..]) as int) else DigitsValue(s[1..]))
      else None
    else if |s| > 0 && AllDigits(s) then Some(DigitsValue(s))
    else None
  }

  /** `str(n)` for a natural number. */
  function ShowNat(n: nat): (s: string)
    ensures |s| > 0 && AllDigits(s)
    decreases n
  {
    if n < 10 then [DigitChar(n)] else ShowNat(n / 10) + [DigitChar(n % 10)]
  }

  /** `str(n)` for any integer. */
  function ShowInt(n: int): (s: string) {
    if n < 0 then "-" + ShowNat(-n) else ShowNat(n)
  }

  lemma {:induction false} ShowNatValue(n: nat)
    ensures DigitsValue(ShowNat(n)) == n
    decreases n
  {
    if n >= 10 {
      ShowNatValue(n / 10);
      var s := ShowNat(n);
      assert s[..|s| - 1] == ShowNat(n / 10);
    }
  }

  /** `int(str(n)) == n`. */
  lemma ParseShowInt(n: int)
    ensures ParseInt(ShowInt(n)) == Some(n)
  {
    var s := ShowInt(n);
    if n < 0 {
      ShowNatValue(-n);
      assert s[1..] == ShowNat(-n);
    } else {
      ShowNatValue(n);
    }
  }

  /** `int(tenor[:-1]) if tenor[-1] != 'Y' else int(tenor[:-1]) * 12`: a label ending in
      exactly 'Y' counts years, anything else (a lower-case 'y' included) is read as a
      number of months. */
  function TenorMonths(tenor: string): (r: Result<int, CurveError>)
    ensures r == Err(EmptyLabel) <==> |tenor| == 0
    ensures r.Ok? <==> |tenor| > 0 && IntLiteral(tenor[..|tenor| - 1])
    ensures r.Err? && |tenor| > 0 ==> r.error == BadTenor(tenor)
  {
    if |tenor| == 0 then Err(EmptyLabel)
    else
      match ParseInt(tenor[..|tenor| - 1])
      case None => Err(BadTenor(tenor))
      case Some(v) => Ok(if tenor[|tenor| - 1] != 'Y' then v else v * 12)
  }

  /** A number followed by 'Y' is that many years in months; followed by any other
      character it is that many months. */
  lemma TenorOfNumber(n: int, unit: char)
    ensures TenorMonths(ShowInt(n) + [unit]) == Ok(if unit == 'Y' then 12 * n else n)
  {
    var tenor := ShowInt(n) + [unit];
    assert tenor[..|tenor| - 1] == ShowInt(n);
    ParseShowInt(n);
  }

  /** The labels of the data set and the lower-case and unit-only edge cases. */
  lemma TenorExamples()
    ensures TenorMonths("3M") == Ok(3)
    ensures TenorMonths("30Y") == Ok(360)
    ensures TenorMonths("30y") == Ok(30)
    ensures TenorMonths("M") == Err(BadTenor("M"))
    ensures TenorMonths("") == Err(EmptyLabel)
  {
    TenorOfNumber(3, 'M');
    TenorOfNumber(30, 'Y');
    TenorOfNumber(30, 'y');
    assert ShowInt(3) + ['M'] == "3M";
    assert ShowInt(30) + ['Y'] == "30Y";
    assert ShowInt(30) + ['y'] == "30y";
    assert "M"[..0] == "";
  }

  /** The list comprehension over all labels: the first label that fails raises. */
  function TenorValues(tenors: seq<string>): (r: Result<seq<int>, CurveError>)
    ensures r.Ok? <==> forall j :: 0 <= j < |tenors| ==> TenorMonths(tenors[j]).Ok?
    ensures r.Ok? ==> |r.value| == |tenors|
    ensures r.Ok? ==> forall j :: 0 <= j < |tenors| ==> r.value[j] == TenorMonths(tenors[j]).value
    ensures r.Err? ==> exists j :: 0 <= j < |tenors| && TenorMonths(tenors[j]) == Err(r.error)
                        && forall l :: 0 <= l < j ==> TenorMonths(tenors[l]).Ok?
    decreases |tenors|
  {
    if |tenors| == 0 then Ok([])
    else
      match TenorMonths(tenors[0])
      case Err(e) => Err(e)
      case Ok(v) =>
        match TenorValues(tenors[1..])
        case Err(e) =>
          assert forall l :: 1 <= l < |tenors| ==> tenors[l] == tenors[1..][l - 1];
          Err(e)
        case Ok(vs) =>
          assert forall l :: 1 <= l < |tenors| ==> tenors[l] == tenors[1..][l - 1];
          Ok([v] + vs)
  }

  // ---------------------------------------------------------------------------
  // The yield grid
  // ---------------------------------------------------------------------------

  /** The rates of one complete row, NaN-free. */
  function RowRates(row: Row, width: nat): (v: seq<real>)
    requires Complete(row) && |row.rates| == width
    ensures |v| == width
    ensures forall j {:trigger v[j]} :: 0 <= j < width ==> Some(v[j]) == row.rates[j]
  {
    seq(width, j requires 0 <= j < width => row.rates[j].value)
  }

  /** `df[tenors].values` of complete rows: row `i`, column `j`. */
  function YieldTable(kept: seq<Row>, width: nat): (T: seq<seq<real>>)
    requires forall i :: 0 <= i < |kept| ==> Complete(kept[i]) && |kept[i].rates| == width
    ensures |T| == |kept| && Rectangular(T, width)
    ensures forall i, j {:trigger T[i][j]} :: 0 <= i < |kept| && 0 <= j < width ==>
              Some(T[i][j]) == kept[i].rates[j]
  {
    seq(|kept|, i requires 0 <= i < |kept| => RowRates(kept[i], width))
  }

  /** `.T`: the transpose of a table `width` columns wide. */
  function Transpose<T>(table: seq<seq<T>>, width: nat): (Z: seq<seq<T>>)
    requires Rectangular(table, width)
    ensures Rectangular(Z, |table|) && |Z| == width
    ensures forall j, i {:trigger Z[j][i]} :: 0 <= j < width && 0 <= i < |table| ==>
              Z[j][i] == table[i][j]
  {
    seq(width, j requires 0 <= j < width =>
      seq(|table|, i requires 0 <= i < |table| => table[i][j]))
  }

  /** Transposing twice gives the table back. */
  lemma TransposeTwice<T>(table: seq<seq<T>>, width: nat)
    requires Rectangular(table, width)
    ensures Transpose(Transpose(table, width), |table|) == table
  {
    var back := Transpose(Transpose(table, width), |table|);
    forall i | 0 <= i < |table|
      ensures back[i] == table[i]
    {
      assert forall j :: 0 <= j < width ==> back[i][j] == table[i][j];
    }
  }

  /** The rows that survive coercion and `dropna`, each complete and one rate per tenor. */
  function KeptRows(raw: seq<RawRow>, toNumeric: string -> Option<real>, width: nat): (kept: seq<Row>)
    requires forall i :: 0 <= i < |raw| ==> |raw[i].cells| == width
    ensures forall k :: 0 <= k < |kept| ==> Complete(kept[k]) && |kept[k].rates| == width
  {
    var rows := Coerce(raw, toNumeric);
    FilterPreserves(rows, Complete, (r: Row) => |r.rates| == width);
    DropIncomplete(rows)
  }

  /** `df['Date'].values`. */
  function Dates(rows: seq<Row>): seq<int> {
    Map(rows, (r: Row) => r.date)
  }

  /** `df[tenors].values.T` for the kept rows: entry [j][i] is tenor j's yield on kept
      row i. */
  function Grid(kept: seq<Row>, width: nat): (Z: seq<seq<real>>)
    requires forall i :: 0 <= i < |kept| ==> Complete(kept[i]) && |kept[i].rates| == width
    ensures |Z| == width && Rectangular(Z, |kept|)
    ensures forall j, i {:trigger Z[j][i]} :: 0 <= j < width && 0 <= i < |kept| ==>
              Some(Z[j][i]) == kept[i].rates[j]
  {
    Transpose(YieldTable(kept, width), width)
  }

  /** The script end to end, in its order of evaluation: coerce, drop incomplete rows,
      offset the dates (which fails first when no row is left), convert the tenor labels,
      transpose the yields. */
  function YieldSurface(columns: seq<string>, raw: seq<RawRow>, toNumeric: string -> Option<real>)
    : (res: Result<Surface, CurveError>)
    requires forall i :: 0 <= i < |raw| ==> |raw[i].cells| == |Tenors(columns)|
    ensures res == Err(NoCompleteRows) <==> |KeptRows(raw, toNumeric, |Tenors(columns)|)| == 0
    ensures res.Ok? <==> |KeptRows(raw, toNumeric, |Tenors(columns)|)| > 0 && TenorValues(Tenors(columns)).Ok?
    ensures |KeptRows(raw, toNumeric, |Tenors(columns)|)| > 0 && TenorValues(Tenors(columns)).Err? ==>
              res == Err(TenorValues(Tenors(columns)).error)
    ensures res.Ok? ==>
              DayOffsets(Dates(KeptRows(raw, toNumeric, |Tenors(columns)|))) == Ok(res.value.dayOffsets)
    ensures res.Ok? ==> |res.value.tenorMonths| == |Tenors(columns)| == |res.value.grid|
    ensures res.Ok? ==> forall j :: 0 <= j < |Tenors(columns)| ==>
              TenorMonths(Tenors(columns)[j]) == Ok(res.value.tenorMonths[j])
    ensures res.Ok? ==>
              var kept := KeptRows(raw, toNumeric, |Tenors(columns)|);
              && |res.value.dayOffsets| == |kept|
              && (forall j :: 0 <= j < |res.value.grid| ==> |res.value.grid[j]| == |kept|)
              && (forall j, i {:trigger res.value.grid[j][i]} :: 0 <= j < |res.value.grid| && 0 <= i < |kept| ==>
                    Some(res.value.grid[j][i]) == kept[i].rates[j])
  {
    var tenors := Tenors(columns);
    var kept := KeptRows(raw, toNumeric, |tenors|);
    match DayOffsets(Dates(kept))
    case Err(e) => Err(e)
    case Ok(Y) =>
      match TenorValues(tenors)
      case Err(e) => Err(e)
      case Ok(X) => Ok(Surface(X, Y, Grid(kept, |tenors|)))
  }
}
